=== FILE: README.md ===
# pushpullrun — a verified model of the data layer

pushpullrun is an iOS fitness tracker. Its core is a small data layer: typed
records (user profiles, exercises, workouts, sets) persisted in a Firestore
document store, an identity provider for accounts, and the view models that
drive the sign-in flow, the exercise library and the workout log. This
project models that core in Dafny and proves properties about it.

The model is organised like the program:

- `results.dfy` (`Results`) — `Option`, `Result` and the `NSError`-shaped `Error`.
- `domain.dfy` (`Domain`) — the records and string-tagged enums of the
  "Models" and "Enums" sections of `ContentView.swift`, and the built-in sample exercises.
- `documents.dfy` (`Documents`) — how a record becomes a Firestore document
  and back, following Swift's synthesized `Codable` through `Firestore.Encoder`.
- `store.dfy` (`Store`) — the backend as a value: documents by path, the set
  of registered identities, and the signed-in session; document paths, storage
  keys, and what a faithful answer to a collection query is.
- `firebase_manager.dfy` (`FirebaseManager`) — every Firestore and
  Auth operation of `FirebaseManager.swift` (the image uploads only as their
  storage keys) as a function from the backend and the SDK's replies
  to the backend afterwards and the result its completion handler receives.
- `workout_list.dfy` (`WorkoutList`) — newest-first sorting, removal at a set
  of offsets, the set editor's resize, and the workout the editor builds.
- `auth_view_model.dfy` (`AuthViewModel`) — `AuthViewModel`'s published state
  and the transition each action and each completion makes.
- `screens.dfy` (`Screens`) — `ExerciseLibraryView.loadExercises` and the
  `WorkoutsView` actions.

Modelling conventions. An asynchronous SDK call is represented by what its
completion handler receives: `Reply<T>` is `(value, nil)`, `(_, error)` or
`(nil, nil)`; a write takes `Option<Error>`; a single-document read takes a
`Link` (answered from the store, failed, or answered with nothing). Things the
code obtains from the system — `UUID()`, `Date()`, the build configuration
(`#if DEBUG`) — are parameters. Dates are integers, `Double`s are reals, and a
`UUID` is its 36-character `uuidString`.

Behaviours of the code a reader may not expect:

- Sign-in repairs a missing profile document only in debug builds: the repair
  in `signIn` sits inside `#if DEBUG`, and a release build reports "User
  profile not found". `FirebaseManager.SignIn` takes the build flag, and
  `SignInRepairsMissingProfile` / `SignInReleaseDoesNotRepair` state both sides.
- The missing-profile repair is not confined to sign-in: `ensureUserProfileExists`
  (run at launch for a remembered session) applies it in every build.
- A property declared with a default value (`fitnessGoals = []`,
  `instructions = []`, `completed = false`, …) is still required when decoding:
  synthesized `Decodable` ignores defaults, so a document without the key fails.

## Model

| member | source | states |
|---|---|---|
| Domain.ParseCategory | ContentView.swift:68-74 | parsing a raw value gives the case with that tag, and fails exactly when no case has it |
| Domain.ParseMuscle | ContentView.swift:76-89 | the same for muscle groups, including the tags "Quadriceps" and "Full Body" |
| Domain.ParseDifficulty | ContentView.swift:91-95 | the same for difficulty levels |
| Domain.ParseEquipment | ContentView.swift:97-109 | the same for equipment, including "None", "Resistance Band", "Body Weight", "Jump Rope", "Other" |
| Domain.ParseWorkoutType | ContentView.swift:111-117 | the same for workout types, including "HIIT" |
| Domain.TagsDistinct | ContentView.swift:68-117 | within each enum no two cases share a raw value, and the all-cases lists list every case |
| Domain.ParseTagRoundTrip | ContentView.swift:68-117 | every case's raw value parses back to that case |
| Domain.SampleExercises | ContentView.swift:122-167 | the built-in library holds three exercises |
| Documents.DecodeItems | FirebaseManager.swift:358-363 | a list decodes exactly when every item decodes, in order and with equal length; otherwise the error is that of the first item that fails |
| Documents.ItemsRoundTrip | ContentView.swift:13-63 | if each item's encoding decodes back to it, the encoded list decodes back to the list |
| Documents.Mismatch | FirebaseManager.swift:362-364 | a value a reader rejects gives Foundation's "missing" error exactly when it is null, and the "wrong format" error otherwise |
| Domain.BlankSet | ContentView.swift:1607 | `ExerciseSet(id:)` keeps the given id and is blank: no reps, weight, duration or distance, not completed |
| Documents.EncodeSet | ContentView.swift:57-64 | an optional set field is written exactly when present, and no field is written as null |
| Documents.DecodeSet | ContentView.swift:57-64 | a decoded set's id is the document's "id"; a document without "completed" is rejected although the property has a default; every failure is a Foundation coding error |
| Documents.SetRoundTrip | ContentView.swift:57-64 | decoding an encoded set gives the set back |
| Documents.EncodeExercise | ContentView.swift:25-35 | an exercise document has exactly the nine property keys and stores category, difficulty, and every muscle group and equipment item as their raw tags, not as integer codes |
| Documents.DecodeExercise | ContentView.swift:25-35 | a decoded exercise's id is the document's "id"; a document without "instructions", "equipment" or "imageNames" is rejected although those default to []; every failure is a Foundation coding error |
| Documents.ExerciseRoundTrip | ContentView.swift:25-35 | decoding an encoded exercise gives it back, lists in order |
| Documents.EncodeWorkoutExercise | ContentView.swift:49-54 | the notes key is present exactly when the notes are |
| Documents.DecodeWorkoutExercise | ContentView.swift:49-54 | a decoded entry's id is the document's "id"; failures are coding errors |
| Documents.WorkoutExerciseRoundTrip | ContentView.swift:49-54 | decoding an encoded workout entry gives it back, sets in order |
| Documents.EncodeWorkout | ContentView.swift:38-46 | a workout document has exactly the six property keys plus "notes" when set; id, name and duration as themselves, date as a timestamp, the type as its raw tag, exercises as an array of their encodings |
| Documents.DecodeWorkout | ContentView.swift:38-46 | a decoded workout's id and date are the document's "id" and "date"; failures are coding errors |
| Documents.WorkoutRoundTrip | ContentView.swift:38-46 | decoding an encoded workout gives it back, exercises and sets in order |
| Documents.EncodeProfile | ContentView.swift:13-22 | profile image, height and weight are written exactly when present; nothing is written as null |
| Documents.DecodeProfile | ContentView.swift:13-22 | a decoded profile's id, username, email and join date are the document's; a document without "fitnessGoals" is rejected although it defaults to []; every failure is a Foundation coding error |
| Documents.ProfileRoundTrip | ContentView.swift:13-22 | decoding an encoded profile gives it back |
| Store.PathsDistinct | FirebaseManager.swift:241-399 | profile, exercise and workout paths are injective in their ids and never collide with each other |
| Store.ImageKeysDistinct | FirebaseManager.swift:439-475 | distinct owners get distinct image keys, and profile keys never equal exercise keys |
| Store.ChildIdsMembership | FirebaseManager.swift:351 | an id is a child of a collection exactly when a document is stored at that collection's path plus the id |
| Store.DatedChildIdsMembership | FirebaseManager.swift:402-403 | the date-ordered query covers exactly the children that have a "date" field |
| FirebaseManager.NotFoundTestIsExact | FirebaseManager.swift:177 | the repair test accepts the manager's own not-found error and rejects its other errors, coding errors, and an error of another domain with the same text |
| FirebaseManager.LocalPart | FirebaseManager.swift:183 | the username is a prefix of the email with no "@", ending right before the first "@" |
| FirebaseManager.DefaultUsername | FirebaseManager.swift:183 | without an email the username is "User"; with one it is the email's text up to its first "@" |
| FirebaseManager.DefaultProfile | FirebaseManager.swift:181-190 | the repaired profile has the given id and date, the default username, the email or "" without one, no image, height or weight, and no goals; its document holds only the five required keys |
| FirebaseManager.Commit | FirebaseManager.swift:252-264 | a write is applied exactly when its completion reports no error; nothing else in the store and nothing of the session changes |
| FirebaseManager.SaveUserProfile | FirebaseManager.swift:241-271 | after a successful save the profile decodes back from `users/{uid}`; a failed save changes nothing |
| FirebaseManager.UpdateUserProfile | FirebaseManager.swift:328-330 | an update overwrites the whole document with the new encoding and touches neither the identities nor the session; a failure changes nothing |
| FirebaseManager.FetchUserProfile | FirebaseManager.swift:273-326 | a transport error passes through unchanged; no snapshot gives "User document is nil"; an absent document gives "User profile not found"; a stored document is returned as it decodes |
| FirebaseManager.SaveThenFetchProfile | FirebaseManager.swift:241-326 | what is saved at `users/{uid}` is what a later fetch returns |
| FirebaseManager.CreateUser | FirebaseManager.swift:52-134 | provider errors pass through; success adds exactly the new identity, signs it in, and stores a fresh profile the fetch returns, changing no other document; a failed save reports the save error, leaves the store as it was, and removes the identity once the delete goes through |
| FirebaseManager.CreateUserRollsBack | FirebaseManager.swift:108-131 | a failed profile save with a successful delete leaves the backend as before, signed out |
| FirebaseManager.Recover | FirebaseManager.swift:171-206 | only the not-found error triggers the repair, and any other error passes through; a failed repair save reports the save error; the repaired profile has the given id and date, the email's local part as username, the email (or ""), no image, height, weight or goals, and is fetchable |
| FirebaseManager.SignIn | FirebaseManager.swift:136-213 | provider errors pass through; a signed-in identity is kept; a release build returns exactly the fetch result; a debug build returns the fetch result unless it is the not-found error, which it hands to the repair |
| FirebaseManager.SignInRepairsMissingProfile | FirebaseManager.swift:171-206 | in a debug build an identity without a profile signs in and ends up with exactly one new document, keyed by its uid |
| FirebaseManager.SignInReleaseDoesNotRepair | FirebaseManager.swift:207-209 | in a release build the missing profile is reported and nothing is written |
| FirebaseManager.SignInKeepsStoredProfile | FirebaseManager.swift:163-170 | a stored profile is never overwritten by sign-in, even when it fails to decode |
| FirebaseManager.EnsureUserProfileExists | FirebaseManager.swift:503-560 | no session is an error; a stored profile is returned as decoded; a fetch error other than not-found passes through unchanged; a missing profile is repaired exactly as `Recover` does (default username, the email or "", no image, height, weight or goals, fetchable), or the save error is reported |
| FirebaseManager.SignOut | FirebaseManager.swift:215-222 | success clears the session; failure changes nothing; the store is never touched |
| FirebaseManager.ResetPassword | FirebaseManager.swift:224-232 | succeeds exactly when the provider reports no error |
| FirebaseManager.SaveExercise | FirebaseManager.swift:335-348 | after a successful save the exercise decodes back from its path; only that path changes |
| FirebaseManager.FetchExercises | FirebaseManager.swift:350-371 | no snapshot is an empty list; the fetch succeeds exactly when every document decodes, giving them in order; otherwise it reports the error of the first document that fails |
| FirebaseManager.DeleteExercise | FirebaseManager.swift:373-382 | a successful delete removes exactly that document; identities and session are untouched |
| FirebaseManager.SaveWorkout | FirebaseManager.swift:386-399 | a successful save stores the workout's encoding under `users/{uid}/workouts/{id}` and changes nothing else |
| FirebaseManager.FetchWorkouts | FirebaseManager.swift:401-424 | as the exercise fetch, for the user's workouts, including the first failing document's error |
| FirebaseManager.DeleteWorkout | FirebaseManager.swift:426-435 | a successful delete removes exactly that workout document; identities and session are untouched |
| FirebaseManager.SavesAreIdempotent | FirebaseManager.swift:241-399 | saving a profile, exercise or workout twice leaves the backend as saving it once |
| FirebaseManager.FetchWorkoutsNewestFirst | FirebaseManager.swift:401-403 | a faithful answer to the date-descending query decodes to a newest-first list |
| FirebaseManager.FetchEmptyCollections | FirebaseManager.swift:350-424 | an empty collection is fetched as an empty list, not an error |
| FirebaseManager.WorkoutWritesKeepKeys | FirebaseManager.swift:386-435 | saves and deletes keep every workout document stored under its own id |
| FirebaseManager.DeletedWorkoutIsGone | FirebaseManager.swift:426-435 | after a successful delete no fetch of the workouts returns that workout |
| FirebaseManager.SavedWorkoutIsFetched | FirebaseManager.swift:386-424 | a store holding a workout's encoding at its path, as a successful save leaves it, returns that workout in every decodable fetch |
| WorkoutList.Insert | ContentView.swift:1068-1070 | inserting into a newest-first list keeps it newest first and adds exactly the one workout |
| WorkoutList.SortNewestFirst | ContentView.swift:1070 | the sort result is newest first and a permutation of its input |
| WorkoutList.InsertIsStable | ContentView.swift:1068-1070 | the inserted workout lands after every workout of its own date, and those keep their order |
| WorkoutList.SortIsStable | ContentView.swift:1070 | the sort is stable: the workouts sharing a date come out in the order they went in |
| WorkoutList.Kept | ContentView.swift:1105 | the surviving indices are in range, not removed, strictly increasing, and include every index not removed |
| WorkoutList.RemoveAt | ContentView.swift:1105 | the remaining rows are exactly the rows at the surviving indices, in order |
| WorkoutList.RemoveAtKeepsOrder | ContentView.swift:1105 | removing rows from a newest-first list leaves it newest first |
| WorkoutList.RemoveAtRemovesExactly | ContentView.swift:1105 | every row not removed survives, and the list shrinks by the number of in-range offsets |
| WorkoutList.KeptCount | ContentView.swift:1105 | the number of surviving indices is the length minus the in-range offsets |
| WorkoutList.UpdateSets | ContentView.swift:1602-1613 | the list has the requested length, keeps the existing sets in place, and fills up with blank sets with fresh ids |
| WorkoutList.NotesOrNil | ContentView.swift:1381 | empty notes become nil, any other text is kept |
| WorkoutList.NewWorkout | ContentView.swift:1374-1387 | the duration is the minutes in seconds (300 to 10800 for the slider's range), notes nil exactly when empty and otherwise the text typed |
| AuthViewModel.Launch | ContentView.swift:233-253 | the app starts signed out, loading exactly when a session is being restored |
| AuthViewModel.Begin | ContentView.swift:255-258 | starting a request sets loading and clears the error without touching the session |
| AuthViewModel.ResolveSession | ContentView.swift:239-250 | a profile signs the user in; an error is shown and leaves the session as it was |
| AuthViewModel.Logout | ContentView.swift:295-306 | a successful sign-out drops the profile; a failed one keeps it and shows the error |
| AuthViewModel.ResolveReset | ContentView.swift:308-326 | the caller is told true exactly when the request was accepted; failures are shown |
| AuthViewModel.UpdateProfile | ContentView.swift:328-341 | refused exactly without a held profile and a session; otherwise only height, weight and goals change |
| AuthViewModel.ResolveUpdate | ContentView.swift:343-353 | the held profile becomes the edited one only when the write succeeded |
| AuthViewModel.TransitionsKeepCoherence | ContentView.swift:227-356 | every transition keeps "authenticated exactly when a profile is held", an edit provided it resolves while signed in |
| AuthViewModel.UpdateAfterLogoutIsIncoherent | ContentView.swift:295-353 | an edit that completes after a logout restores a profile while signed out |
| AuthViewModel.Login | ContentView.swift:255-273 | after login the error is clear exactly when sign-in succeeded, and then the fetched profile is held |
| AuthViewModel.Register | ContentView.swift:275-293 | after registration the error is clear exactly when creation succeeded, and then the new profile is held; a failure leaves the session as it was |
| AuthViewModel.RegisteredProfileIsStored | ContentView.swift:275-293 | a successful registration holds exactly the profile the store returns for the new identity |
| AuthViewModel.DebugLoginRepairs | ContentView.swift:255-273 | a debug-build login without a profile signs in with the repaired, stored profile |
| AuthViewModel.ReleaseLoginReportsMissingProfile | ContentView.swift:255-273 | a release-build login without a profile shows the not-found error, stays signed out, writes nothing |
| Screens.BeginLoadLibrary | ContentView.swift:814-816 | every load (on appearing, "Try Again", pull-to-refresh) starts loading and clears the old error, keeping the list |
| Screens.AppearLibrary | ContentView.swift:806-810 | the library loads on appearing only when it is empty |
| Screens.ExercisesLoaded | ContentView.swift:814-844 | a non-empty fetch is shown; an empty one shows and seeds the samples; a failure keeps the samples in the list and sets the error, and the error view hides the list |
| Screens.LibraryNeverEmpty | ContentView.swift:814-844 | whatever the store answers, the library is non-empty once loading ends |
| Screens.SeedLibrary | ContentView.swift:832-834 | seeding never touches the session or the identities |
| Screens.SeedLibraryFrame | ContentView.swift:832-834 | seeding changes no document outside the seeded exercises' paths |
| Screens.SeedLibraryStores | ContentView.swift:832-834 | with distinct ids, each seed save that succeeded leaves its exercise decodable at its path |
| Screens.SeededLibraryIsFetched | ContentView.swift:819-834 | once every seed save succeeded, a decodable fetch contains every sample |
| Screens.BeginRemote | ContentView.swift:1028-1059 | signed out, a load or save is refused with its own message and the list kept; otherwise loading starts and the error clears |
| Screens.WorkoutsLoaded | ContentView.swift:1037-1049 | a fetched list replaces the shown one; a failure keeps it and shows the error |
| Screens.LoadedWorkoutsNewestFirst | ContentView.swift:1037-1043 | a list loaded from a faithful query answer is shown newest first |
| Screens.WorkoutSaved | ContentView.swift:1061-1076 | a saved workout joins the list, which is a newest-first permutation of old list plus it; a failure keeps the list |
| Screens.DeleteWorkouts | ContentView.swift:1079-1106 | signed out, nothing is deleted; otherwise the rows are removed locally and every swiped workout's id is sent for deletion, and only those |
| Screens.DeletionMatchesRemoval | ContentView.swift:1085-1105 | with unique ids, no row still shown is being deleted, every row not swiped stays, and the list shrinks by the offsets |
| Screens.DeleteResolvedAsWritten | ContentView.swift:1088-1099 | a success changes nothing; a failed delete starts a reload that, while signed in, clears the error just shown and, signed out, replaces it with the load refusal |
| Screens.DeleteErrorIsLost | ContentView.swift:1094-1098 | while signed in, a failed delete leaves no error on screen |
| Screens.DeleteResolved | ContentView.swift:1088-1099 | a failed delete's error is kept in `errorMessage` while the reload runs, so it is shown once the reload ends |
| Screens.DeleteErrorSurvivesReload | ContentView.swift:1043-1098 | with the intended completion the delete error survives a successful reload |
| Screens.LocalEditsKeepNewestFirst | ContentView.swift:1028-1106 | saving, swiping away and resolving a delete keep the shown list newest first |

## Left out

- Network, threading and the main-queue hops: each completion is applied as one atomic step; interleavings other than the logout race in `UpdateAfterLogoutIsIncoherent` are not modelled.
- Passwords and the provider's credential checks: `CreateUser` and `SignIn` take the provider's reply as a parameter.
- `UUID()`, `Date()` and `#if DEBUG` are parameters; UUID text is not case-normalised.
- Strings compare by code point, not by Swift's canonical equivalence: a raw value spelled with a canonically equivalent but different code point sequence (a KELVIN SIGN for "K", say) parses to a case in Swift and to nothing in `Domain.ParseEquipment` and the other parsers.
- Encoding failures: every value of the model encodes, so the encoder's error branch (`saveUserProfile`'s `catch`) never arises.
- Firestore's numeric coercions (an integer read as a `Double`, and back) are not modelled; a value of the wrong kind is a decoding error.
- 64-bit width of `Int` and floating-point behaviour of `Double` and `TimeInterval`: integers and reals are unbounded.
- Image upload: only the storage keys are modelled; JPEG conversion, upload and download URLs are SDK calls.
- Screens.SeedLibrary: the seed saves' own results are ignored by the screen, so only their effect on the store is stated.
- Domain.SampleExercises: its contract states only the count; the field values are in its body.
- `DataStore` (the local `UserDefaults` cache), the SwiftUI views, date and duration formatting, search filtering, and `pushpullrunApp.swift` are outside this model.
- `WorkoutsView.deleteWorkout` indexes `workouts[index]`; an out-of-range offset traps, which `Screens.DeleteWorkouts` excludes by its precondition.

## Findings

| source | as written | input that shows it | evidently intended | confidence | as-written member | corrected member |
|---|---|---|---|---|---|---|
| ContentView.swift:1094-1098 | a failed delete sets `errorMessage` and then calls `loadWorkouts()`, which sets `errorMessage = nil` when a user is signed in | any delete whose completion reports an error while signed in | the failure stays in `errorMessage` through the reload and is shown once the reload ends (the screen shows only a progress view while loading) | medium, not executed | Screens.DeleteResolvedAsWritten (with Screens.DeleteErrorIsLost) | Screens.DeleteResolved (with Screens.DeleteErrorSurvivesReload) |

=== FILE: auth_view_model.dfy ===
/**
 The authentication state machine (`AuthViewModel` in ContentView.swift):
 its published fields, the synchronous half of each action, and the
 transition its completion handler makes. The manager's results arrive as
 parameters, so each action is a pair "begin" / "resolve".
 */
module AuthViewModel {
  import opened Results
  import opened Domain
  import opened Store
  import FirebaseManager

  datatype AuthState = AuthState(isAuthenticated: bool, currentUser: Option<UserProfile>,
                                 isLoading: bool, errorMessage: Option<string>)

  /** Authenticated exactly when a profile is held. */
  predicate Coherent(s: AuthState) {
    s.isAuthenticated <==> s.currentUser.Some?
  }

  /** `init`: signed out, and loading while a remembered session is being restored. */
  function Launch(restoring: bool): (s: AuthState)
    ensures Coherent(s) && !s.isAuthenticated && s.errorMessage.None?
    ensures s.isLoading <==> restoring
  {
    AuthState(false, None, restoring, None)
  }

  /** The synchronous start of `login`, `register` and `resetPassword`. */
  function Begin(s: AuthState): (t: AuthState)
    ensures t.isLoading && t.errorMessage.None?
    ensures t.isAuthenticated == s.isAuthenticated && t.currentUser == s.currentUser
  {
    s.(isLoading := true, errorMessage := None)
  }

  /**
   The completion handler shared by `init`, `login` and `register`: a profile
   signs the user in, an error is shown and changes nothing else.
   */
  function ResolveSession(s: AuthState, r: Result<UserProfile>): (t: AuthState)
    ensures !t.isLoading
    ensures r.Ok? ==> t.isAuthenticated && t.currentUser == Some(r.value) && t.errorMessage == s.errorMessage
    ensures r.Err? ==> t.errorMessage == Some(r.error.description) &&
                       t.isAuthenticated == s.isAuthenticated && t.currentUser == s.currentUser
  {
    match r
    case Ok(profile) => s.(isLoading := false, currentUser := Some(profile), isAuthenticated := true)
    case Err(e) => s.(isLoading := false, errorMessage := Some(e.description))
  }

  /** `logout`: synchronous; a failed sign-out keeps the session and shows the error. */
  function Logout(s: AuthState, r: Result<()>): (t: AuthState)
    ensures r.Ok? ==> !t.isAuthenticated && t.currentUser.None? && t.errorMessage == s.errorMessage
    ensures r.Err? ==> t.errorMessage == Some(r.error.description) &&
                       t.isAuthenticated == s.isAuthenticated && t.currentUser == s.currentUser
    ensures t.isLoading == s.isLoading
  {
    match r
    case Ok(_) => s.(isAuthenticated := false, currentUser := None)
    case Err(e) => s.(errorMessage := Some(e.description))
  }

  /** The state after `resetPassword`'s completion, and the flag passed to the caller's completion. */
  datatype ResetOutcome = ResetOutcome(state: AuthState, accepted: bool)

  function ResolveReset(s: AuthState, r: Result<()>): (o: ResetOutcome)
    ensures o.accepted <==> r.Ok?
    ensures !o.state.isLoading
    ensures o.state.isAuthenticated == s.isAuthenticated && o.state.currentUser == s.currentUser
    ensures r.Ok? ==> o.state.errorMessage == s.errorMessage
    ensures r.Err? ==> o.state.errorMessage == Some(r.error.description)
  {
    match r
    case Ok(_) => ResetOutcome(s.(isLoading := false), true)
    case Err(e) => ResetOutcome(s.(isLoading := false, errorMessage := Some(e.description)), false)
  }

  // ------------------------------------------------------- profile edits

  /**
   The synchronous half of `updateProfile`: refused without both a held
   profile and a signed-in identity; otherwise the request to send.
   */
  datatype ProfileEdit =
    | Refused(state: AuthState)
    | Sent(state: AuthState, updated: UserProfile, uid: string)

  function UpdateProfile(s: AuthState, session: Option<AuthUser>, height: Option<real>, weight: Option<real>,
                         goals: seq<string>): (e: ProfileEdit)
    ensures e.Refused? <==> s.currentUser.None? || session.None?
    ensures e.Refused? ==> e.state == s.(errorMessage := Some("No user logged in"))
    ensures e.Sent? ==> e.state == Begin(s) && e.uid == session.value.uid
    ensures e.Sent? ==>
              var held := s.currentUser.value;
              && e.updated.height == height && e.updated.weight == weight && e.updated.fitnessGoals == goals
              && e.updated.id == held.id && e.updated.username == held.username && e.updated.email == held.email
              && e.updated.joinDate == held.joinDate && e.updated.profileImage == held.profileImage
  {
    if s.currentUser.None? || session.None? then Refused(s.(errorMessage := Some("No user logged in")))
    else
      var updated := s.currentUser.value.(height := height, weight := weight, fitnessGoals := goals);
      Sent(Begin(s), updated, session.value.uid)
  }

  /** `updateProfile`'s completion: the held profile becomes the edited one only when the write succeeded. */
  function ResolveUpdate(s: AuthState, updated: UserProfile, r: Result<()>): (t: AuthState)
    ensures !t.isLoading && t.isAuthenticated == s.isAuthenticated
    ensures r.Ok? ==> t.currentUser == Some(updated) && t.errorMessage == s.errorMessage
    ensures r.Err? ==> t.currentUser == s.currentUser && t.errorMessage == Some(r.error.description)
  {
    match r
    case Ok(_) => s.(isLoading := false, currentUser := Some(updated))
    case Err(e) => s.(isLoading := false, errorMessage := Some(e.description))
  }

  // ---------------------------------------------------------- invariants

  /** Every transition keeps "authenticated exactly when a profile is held", provided an edit resolves while signed in. */
  lemma TransitionsKeepCoherence(s: AuthState, profile: Result<UserProfile>, unit: Result<()>, updated: UserProfile,
                                  session: Option<AuthUser>, height: Option<real>, weight: Option<real>, goals: seq<string>)
    requires Coherent(s)
    ensures Coherent(Begin(s)) && Coherent(ResolveSession(s, profile)) && Coherent(Logout(s, unit))
    ensures Coherent(ResolveReset(s, unit).state) && Coherent(UpdateProfile(s, session, height, weight, goals).state)
    ensures s.isAuthenticated ==> Coherent(ResolveUpdate(s, updated, unit))
  {
  }

  /**
   The proviso above is needed: an edit whose write completes after a logout
   puts a profile back while the user is signed out.
   */
  lemma UpdateAfterLogoutIsIncoherent(s: AuthState, height: Option<real>,
                                      weight: Option<real>, goals: seq<string>, user: AuthUser)
    requires Coherent(s) && s.isAuthenticated
    ensures var e := UpdateProfile(s, Some(user), height, weight, goals);
            e.Sent? && !Coherent(ResolveUpdate(Logout(e.state, Ok(())), e.updated, Ok(())))
  {
  }

  // ------------------------------------------------ actions end to end

  /** `login` from tap to completion: the manager's sign-in, then the handler. */
  function Login(s: AuthState, b: Backend, debug: bool, reply: Reply<AuthUser>, link: Link,
                 profileId: Uuid, now: Date, saveErr: Option<Error>): (r: (AuthState, Backend))
    ensures var step := FirebaseManager.SignIn(b, debug, reply, link, profileId, now, saveErr);
            && r.1 == step.backend
            && (r.0.errorMessage.None? <==> step.result.Ok?)
            && (step.result.Ok? ==> r.0.isAuthenticated && r.0.currentUser == Some(step.result.value))
            && (step.result.Err? ==> r.0.currentUser == s.currentUser && r.0.isAuthenticated == s.isAuthenticated)
  {
    var step := FirebaseManager.SignIn(b, debug, reply, link, profileId, now, saveErr);
    (ResolveSession(Begin(s), step.result), step.backend)
  }

  /** `register` from tap to completion: the manager's account creation, then the handler. */
  function Register(s: AuthState, b: Backend, email: string, username: string, reply: Reply<AuthUser>,
                    profileId: Uuid, now: Date, saveErr: Option<Error>, deleteErr: Option<Error>): (r: (AuthState, Backend))
    ensures var step := FirebaseManager.CreateUser(b, email, username, reply, profileId, now, saveErr, deleteErr);
            && r.1 == step.backend
            && (r.0.errorMessage.None? <==> step.result.Ok?)
            && (step.result.Ok? ==> r.0.isAuthenticated && r.0.currentUser == Some(step.result.value))
            && (step.result.Err? ==> r.0.currentUser == s.currentUser && r.0.isAuthenticated == s.isAuthenticated)
  {
    var step := FirebaseManager.CreateUser(b, email, username, reply, profileId, now, saveErr, deleteErr);
    (ResolveSession(Begin(s), step.result), step.backend)
  }

  /**
   A registration that goes through leaves the app signed in with exactly the
   profile the store now holds for the new identity.
   */
  lemma RegisteredProfileIsStored(s: AuthState, b: Backend, email: string, username: string, user: AuthUser,
                                  profileId: Uuid, now: Date, deleteErr: Option<Error>)
    ensures var r := Register(s, b, email, username, Delivered(user), profileId, now, None, deleteErr);
            && Coherent(r.0) && r.0.isAuthenticated && r.0.currentUser.value.username == username
            && r.1.session == Some(user)
            && FirebaseManager.FetchUserProfile(r.1.db, user.uid, Online) == Ok(r.0.currentUser.value)
  {
  }

  /** A debug-build login of an identity without a profile signs the app in with the repaired profile. */
  lemma DebugLoginRepairs(s: AuthState, b: Backend, user: AuthUser, profileId: Uuid, now: Date)
    requires ProfilePath(user.uid) !in b.db
    ensures var r := Login(s, b, true, Delivered(user), Online, profileId, now, None);
            && r.0.isAuthenticated && r.0.errorMessage.None?
            && r.0.currentUser.value.username == FirebaseManager.DefaultUsername(user.email)
            && FirebaseManager.FetchUserProfile(r.1.db, user.uid, Online) == Ok(r.0.currentUser.value)
  {
  }

  /** The same login in a release build shows the not-found error and stays signed out. */
  lemma ReleaseLoginReportsMissingProfile(b: Backend, user: AuthUser, profileId: Uuid, now: Date, saveErr: Option<Error>)
    requires ProfilePath(user.uid) !in b.db
    ensures var r := Login(Launch(false), b, false, Delivered(user), Online, profileId, now, saveErr);
            && !r.0.isAuthenticated && r.0.errorMessage == Some(FirebaseManager.NotFoundMessage)
            && r.1.db == b.db
  {
  }
}

=== FILE: documents.dfy ===
/**
 How the records become Firestore documents and back: Swift's synthesized
 `Codable` conformance run through `Firestore.Encoder` / `document.data(as:)`.
 Every stored property becomes a key named after the property; a `nil`
 optional is omitted (never written as null); enums are stored as their raw
 string tag, dates as timestamps, UUIDs as their text. Decoding reads the keys
 in declaration order and fails on the first key that is missing or malformed.
 */
module Documents {
  import opened Results
  import opened Domain

  /** The kinds of value a Firestore document field can hold. */
  datatype Value =
    | Null
    | Boolean(b: bool)
    | Integer(i: int)
    | Double(d: real)
    | Timestamp(t: Date)
    | Text(s: string)
    | Array(items: seq<Value>)
    | Object(fields: map<string, Value>)

  /** The data of one stored document. */
  type Document = map<string, Value>

  /** The domain of Foundation's coding errors, into which `DecodingError` bridges. */
  const CocoaDomain: string := "NSCocoaErrorDomain"

  /** `keyNotFound` / `valueNotFound`: a required key is absent or null. */
  const Missing: Error := Error(CocoaDomain, 4865, "The data couldn\U{2019}t be read because it is missing.")

  /** `typeMismatch` / `dataCorrupted`: a value of the wrong kind, an unknown enum tag, a bad UUID. */
  const Malformed: Error := Error(CocoaDomain, 4864, "The data couldn\U{2019}t be read because it isn\U{2019}t in the correct format.")

  /** A decoding error is always in Foundation's domain, never the manager's. */
  predicate IsCodingError(e: Error) {
    e.domain == CocoaDomain
  }

  // -------------------------------------------------------------- readers

  /**
   The error for a value a reader cannot accept: a null is `valueNotFound`
   (also inside an array), anything else is `typeMismatch`.
   */
  function Mismatch(v: Value): (e: Error)
    ensures IsCodingError(e)
    ensures e == Missing <==> v.Null?
  {
    if v.Null? then Missing else Malformed
  }

  function AsBool(v: Value): Result<bool> {
    if v.Boolean? then Ok(v.b) else Err(Mismatch(v))
  }

  function AsInt(v: Value): Result<int> {
    if v.Integer? then Ok(v.i) else Err(Mismatch(v))
  }

  function AsDouble(v: Value): Result<real> {
    if v.Double? then Ok(v.d) else Err(Mismatch(v))
  }

  function AsText(v: Value): Result<string> {
    if v.Text? then Ok(v.s) else Err(Mismatch(v))
  }

  function AsDate(v: Value): Result<Date> {
    if v.Timestamp? then Ok(v.t) else Err(Mismatch(v))
  }

  function AsUuid(v: Value): Result<Uuid> {
    if v.Text? && IsUuidText(v.s) then Ok(v.s) else Err(Mismatch(v))
  }

  function AsCategory(v: Value): Result<ExerciseCategory> {
    if v.Text? && ParseCategory(v.s).Some? then Ok(ParseCategory(v.s).value) else Err(Mismatch(v))
  }

  function AsMuscle(v: Value): Result<MuscleGroup> {
    if v.Text? && ParseMuscle(v.s).Some? then Ok(ParseMuscle(v.s).value) else Err(Mismatch(v))
  }

  function AsDifficulty(v: Value): Result<DifficultyLevel> {
    if v.Text? && ParseDifficulty(v.s).Some? then Ok(ParseDifficulty(v.s).value) else Err(Mismatch(v))
  }

  function AsEquipment(v: Value): Result<Equipment> {
    if v.Text? && ParseEquipment(v.s).Some? then Ok(ParseEquipment(v.s).value) else Err(Mismatch(v))
  }

  function AsWorkoutType(v: Value): Result<WorkoutType> {
    if v.Text? && ParseWorkoutType(v.s).Some? then Ok(ParseWorkoutType(v.s).value) else Err(Mismatch(v))
  }

  /**
   Decodes every item with `f`, all or nothing: the result lists the decoded
   items in order when each one decodes, and otherwise carries the error of the
   first item that does not.
   */
  function DecodeItems<T>(items: seq<Value>, f: Value -> Result<T>): (r: Result<seq<T>>)
    ensures r.Ok? <==> forall i :: 0 <= i < |items| ==> f(items[i]).Ok?
    ensures r.Ok? ==> |r.value| == |items| && forall i :: 0 <= i < |items| ==> f(items[i]) == Ok(r.value[i])
    ensures r.Err? ==> exists i :: 0 <= i < |items| && f(items[i]) == Err(r.error) &&
                                   forall j :: 0 <= j < i ==> f(items[j]).Ok?
  {
    if items == [] then Ok([])
    else
      var x :- f(items[0]);
      var rest :- DecodeItems(items[1..], f);
      Ok([x] + rest)
  }

  function AsArray<T>(v: Value, f: Value -> Result<T>): Result<seq<T>> {
    if v.Array? then DecodeItems(v.items, f) else Err(Mismatch(v))
  }

  function AsTexts(v: Value): Result<seq<string>> { AsArray(v, AsText) }
  function AsMuscles(v: Value): Result<seq<MuscleGroup>> { AsArray(v, AsMuscle) }
  function AsEquipmentList(v: Value): Result<seq<Equipment>> { AsArray(v, AsEquipment) }

  /** A non-optional property: absent or null is `Missing`. */
  function Required<T>(doc: Document, key: string, f: Value -> Result<T>): Result<T> {
    if key !in doc || doc[key].Null? then Err(Missing) else f(doc[key])
  }

  /** An optional property (`decodeIfPresent`): absent or null is `nil`. */
  function Optional<T>(doc: Document, key: string, f: Value -> Result<T>): Result<Option<T>> {
    if key !in doc || doc[key].Null? then Ok(None)
    else
      var x :- f(doc[key]);
      Ok(Some(x))
  }

  // -------------------------------------------------------------- writers

  function EncodeItems<T>(xs: seq<T>, g: T -> Value): (r: seq<Value>)
    ensures |r| == |xs| && forall i :: 0 <= i < |xs| ==> r[i] == g(xs[i])
  {
    seq(|xs|, i requires 0 <= i < |xs| => g(xs[i]))
  }

  /** `encodeIfPresent`: the key is written only when the value is present. */
  function Put<T>(doc: Document, key: string, o: Option<T>, g: T -> Value): Document {
    if o.Some? then doc[key := g(o.value)] else doc
  }

  function TextValue(s: string): Value {
    Text(s)
  }

  function TextItems(xs: seq<string>): Value {
    Array(EncodeItems(xs, TextValue))
  }

  /** Decoding the encoding of each item gives it back, so the whole list comes back. */
  lemma ItemsRoundTrip<T>(xs: seq<T>, g: T -> Value, f: Value -> Result<T>)
    requires forall i :: 0 <= i < |xs| ==> f(g(xs[i])) == Ok(xs[i])
    ensures DecodeItems(EncodeItems(xs, g), f) == Ok(xs)
  {
    var items := EncodeItems(xs, g);
    var r := DecodeItems(items, f);
    assert r.Ok? by {
      forall i | 0 <= i < |items| ensures f(items[i]).Ok? {
        assert items[i] == g(xs[i]);
      }
    }
    assert r.value == xs by {
      forall i | 0 <= i < |xs| ensures r.value[i] == xs[i] {
        assert f(items[i]) == Ok(r.value[i]);
        assert items[i] == g(xs[i]);
      }
    }
  }

  lemma TextItemsRoundTrip(xs: seq<string>)
    ensures AsTexts(TextItems(xs)) == Ok(xs)
  {
    ItemsRoundTrip(xs, TextValue, AsText);
  }

  // ---------------------------------------------------------- ExerciseSet

  function EncodeSet(s: ExerciseSet): (d: Document)
    ensures ("reps" in d <==> s.reps.Some?) && ("weight" in d <==> s.weight.Some?)
    ensures ("duration" in d <==> s.duration.Some?) && ("distance" in d <==> s.distance.Some?)
    ensures forall k :: k in d ==> !d[k].Null?
  {
    var d := map["id" := Text(s.id), "completed" := Boolean(s.completed)];
    var d := Put(d, "reps", s.reps, (n: int) => Integer(n));
    var d := Put(d, "weight", s.weight, (x: real) => Double(x));
    var d := Put(d, "duration", s.duration, (x: real) => Double(x));
    Put(d, "distance", s.distance, (x: real) => Double(x))
  }

  function DecodeSet(doc: Document): (r: Result<ExerciseSet>)
    ensures r.Ok? ==> "id" in doc && doc["id"] == Text(r.value.id)
    ensures "completed" !in doc ==> r.Err?
    ensures r.Err? ==> IsCodingError(r.error)
  {
    var id :- Required(doc, "id", AsUuid);
    var reps :- Optional(doc, "reps", AsInt);
    var weight :- Optional(doc, "weight", AsDouble);
    var duration :- Optional(doc, "duration", AsDouble);
    var distance :- Optional(doc, "distance", AsDouble);
    var completed :- Required(doc, "completed", AsBool);
    Ok(ExerciseSet(id, reps, weight, duration, distance, completed))
  }

  function SetValue(s: ExerciseSet): Value {
    Object(EncodeSet(s))
  }

  function AsSet(v: Value): Result<ExerciseSet> {
    if v.Object? then DecodeSet(v.fields) else Err(Mismatch(v))
  }

  function AsSets(v: Value): Result<seq<ExerciseSet>> { AsArray(v, AsSet) }

  lemma SetRoundTrip(s: ExerciseSet)
    ensures DecodeSet(EncodeSet(s)) == Ok(s)
  {
  }

  // ------------------------------------------------------------- Exercise

  function CategoryValue(c: ExerciseCategory): Value { Text(CategoryTag(c)) }
  function MuscleValue(m: MuscleGroup): Value { Text(MuscleTag(m)) }
  function EquipmentValue(e: Equipment): Value { Text(EquipmentTag(e)) }

  function EncodeExercise(e: Exercise): (d: Document)
    ensures d.Keys == {"id", "name", "category", "muscleGroups", "description",
                       "instructions", "difficultyLevel", "equipment", "imageNames"}
    ensures d["category"] == Text(CategoryTag(e.category))
    ensures d["difficultyLevel"] == Text(DifficultyTag(e.difficultyLevel))
    ensures d["muscleGroups"] == Array(EncodeItems(e.muscleGroups, MuscleValue))
    ensures d["equipment"] == Array(EncodeItems(e.equipment, EquipmentValue))
  {
    map[
      "id" := Text(e.id),
      "name" := Text(e.name),
      "category" := CategoryValue(e.category),
      "muscleGroups" := Array(EncodeItems(e.muscleGroups, MuscleValue)),
      "description" := Text(e.description),
      "instructions" := TextItems(e.instructions),
      "difficultyLevel" := Text(DifficultyTag(e.difficultyLevel)),
      "equipment" := Array(EncodeItems(e.equipment, EquipmentValue)),
      "imageNames" := TextItems(e.imageNames)
    ]
  }

  function DecodeExercise(doc: Document): (r: Result<Exercise>)
    ensures r.Ok? ==> "id" in doc && doc["id"] == Text(r.value.id)
    ensures "instructions" !in doc || "equipment" !in doc || "imageNames" !in doc ==> r.Err?
    ensures r.Err? ==> IsCodingError(r.error)
  {
    var id :- Required(doc, "id", AsUuid);
    var name :- Required(doc, "name", AsText);
    var category :- Required(doc, "category", AsCategory);
    var muscles :- Required(doc, "muscleGroups", AsMuscles);
    var description :- Required(doc, "description", AsText);
    var instructions :- Required(doc, "instructions", AsTexts);
    var difficulty :- Required(doc, "difficultyLevel", AsDifficulty);
    var equipment :- Required(doc, "equipment", AsEquipmentList);
    var images :- Required(doc, "imageNames", AsTexts);
    Ok(Exercise(id, name, category, muscles, description, instructions, difficulty, equipment, images))
  }

  function ExerciseValue(e: Exercise): Value {
    Object(EncodeExercise(e))
  }

  function AsExercise(v: Value): Result<Exercise> {
    if v.Object? then DecodeExercise(v.fields) else Err(Mismatch(v))
  }

  /** The four list properties of an encoded exercise decode back. */
  lemma ExerciseListsRoundTrip(e: Exercise)
    ensures var d := EncodeExercise(e);
            && Required(d, "muscleGroups", AsMuscles) == Ok(e.muscleGroups)
            && Required(d, "instructions", AsTexts) == Ok(e.instructions)
            && Required(d, "equipment", AsEquipmentList) == Ok(e.equipment)
            && Required(d, "imageNames", AsTexts) == Ok(e.imageNames)
  {
    MusclesRoundTrip(e.muscleGroups);
    EquipmentListRoundTrip(e.equipment);
    TextItemsRoundTrip(e.instructions);
    TextItemsRoundTrip(e.imageNames);
  }

  lemma MusclesRoundTrip(xs: seq<MuscleGroup>)
    ensures AsMuscles(Array(EncodeItems(xs, MuscleValue))) == Ok(xs)
  {
    ParseTagRoundTrip();
    ItemsRoundTrip(xs, MuscleValue, AsMuscle);
  }

  lemma EquipmentListRoundTrip(xs: seq<Equipment>)
    ensures AsEquipmentList(Array(EncodeItems(xs, EquipmentValue))) == Ok(xs)
  {
    ParseTagRoundTrip();
    ItemsRoundTrip(xs, EquipmentValue, AsEquipment);
  }

  lemma {:induction false} ExerciseRoundTrip(e: Exercise)
    ensures DecodeExercise(EncodeExercise(e)) == Ok(e)
  {
    ParseTagRoundTrip();
    var d := EncodeExercise(e);
    ExerciseListsRoundTrip(e);
    assert Required(d, "id", AsUuid) == Ok(e.id);
    assert Required(d, "name", AsText) == Ok(e.name);
    assert Required(d, "category", AsCategory) == Ok(e.category);
    assert Required(d, "muscleGroups", AsMuscles) == Ok(e.muscleGroups);
    assert Required(d, "description", AsText) == Ok(e.description);
    assert Required(d, "instructions", AsTexts) == Ok(e.instructions);
    assert Required(d, "difficultyLevel", AsDifficulty) == Ok(e.difficultyLevel);
    assert Required(d, "equipment", AsEquipmentList) == Ok(e.equipment);
    assert Required(d, "imageNames", AsTexts) == Ok(e.imageNames);
  }

  // ------------------------------------------------------ WorkoutExercise

  function EncodeWorkoutExercise(x: WorkoutExercise): (d: Document)
    ensures "notes" in d <==> x.notes.Some?
  {
    var d := map[
      "id" := Text(x.id),
      "exercise" := ExerciseValue(x.exercise),
      "sets" := Array(EncodeItems(x.sets, SetValue))
    ];
    Put(d, "notes", x.notes, TextValue)
  }

  function DecodeWorkoutExercise(doc: Document): (r: Result<WorkoutExercise>)
    ensures r.Ok? ==> "id" in doc && doc["id"] == Text(r.value.id)
    ensures r.Err? ==> IsCodingError(r.error)
  {
    var id :- Required(doc, "id", AsUuid);
    var exercise :- Required(doc, "exercise", AsExercise);
    var sets :- Required(doc, "sets", AsSets);
    var notes :- Optional(doc, "notes", AsText);
    Ok(WorkoutExercise(id, exercise, sets, notes))
  }

  function WorkoutExerciseValue(x: WorkoutExercise): Value {
    Object(EncodeWorkoutExercise(x))
  }

  function AsWorkoutExercise(v: Value): Result<WorkoutExercise> {
    if v.Object? then DecodeWorkoutExercise(v.fields) else Err(Mismatch(v))
  }

  function AsWorkoutExercises(v: Value): Result<seq<WorkoutExercise>> { AsArray(v, AsWorkoutExercise) }

  lemma {:induction false} WorkoutExerciseRoundTrip(x: WorkoutExercise)
    ensures DecodeWorkoutExercise(EncodeWorkoutExercise(x)) == Ok(x)
  {
    var d := EncodeWorkoutExercise(x);
    assert d["exercise"] == ExerciseValue(x.exercise);
    ExerciseValueRoundTrip(x.exercise);
    assert Required(d, "sets", AsSets) == Ok(x.sets) by {
      SetsRoundTrip(x.sets);
    }
    assert Required(d, "id", AsUuid) == Ok(x.id);
    assert Optional(d, "notes", AsText) == Ok(x.notes);
  }

  lemma ExerciseValueRoundTrip(e: Exercise)
    ensures AsExercise(ExerciseValue(e)) == Ok(e)
  {
    ExerciseRoundTrip(e);
  }

  lemma SetsRoundTrip(xs: seq<ExerciseSet>)
    ensures AsSets(Array(EncodeItems(xs, SetValue))) == Ok(xs)
  {
    forall i | 0 <= i < |xs| ensures AsSet(SetValue(xs[i])) == Ok(xs[i]) {
      SetRoundTrip(xs[i]);
    }
    ItemsRoundTrip(xs, SetValue, AsSet);
  }

  // -------------------------------------------------------------- Workout

  function EncodeWorkout(w: Workout): (d: Document)
    ensures "id" in d && d["id"] == Text(w.id)
    ensures "date" in d && d["date"] == Timestamp(w.date)
    ensures "notes" in d <==> w.notes.Some?
    ensures d.Keys == {"id", "name", "date", "duration", "exercises", "workoutType"} + (if w.notes.Some? then {"notes"} else {})
    ensures d["workoutType"] == Text(WorkoutTypeTag(w.workoutType))
    ensures d["name"] == Text(w.name) && d["duration"] == Double(w.duration)
    ensures d["exercises"] == Array(EncodeItems(w.exercises, WorkoutExerciseValue))
  {
    var d := map[
      "id" := Text(w.id),
      "name" := Text(w.name),
      "date" := Timestamp(w.date),
      "duration" := Double(w.duration),
      "exercises" := Array(EncodeItems(w.exercises, WorkoutExerciseValue)),
      "workoutType" := Text(WorkoutTypeTag(w.workoutType))
    ];
    Put(d, "notes", w.notes, TextValue)
  }

  function DecodeWorkout(doc: Document): (r: Result<Workout>)
    ensures r.Ok? ==> "id" in doc && doc["id"] == Text(r.value.id)
    ensures r.Ok? ==> "date" in doc && doc["date"] == Timestamp(r.value.date)
    ensures r.Err? ==> IsCodingError(r.error)
  {
    var id :- Required(doc, "id", AsUuid);
    var name :- Required(doc, "name", AsText);
    var date :- Required(doc, "date", AsDate);
    var duration :- Required(doc, "duration", AsDouble);
    var exercises :- Required(doc, "exercises", AsWorkoutExercises);
    var notes :- Optional(doc, "notes", AsText);
    var workoutType :- Required(doc, "workoutType", AsWorkoutType);
    Ok(Workout(id, name, date, duration, exercises, notes, workoutType))
  }

  lemma WorkoutExercisesRoundTrip(xs: seq<WorkoutExercise>)
    ensures AsWorkoutExercises(Array(EncodeItems(xs, WorkoutExerciseValue))) == Ok(xs)
  {
    forall i | 0 <= i < |xs| ensures AsWorkoutExercise(WorkoutExerciseValue(xs[i])) == Ok(xs[i]) {
      WorkoutExerciseRoundTrip(xs[i]);
    }
    ItemsRoundTrip(xs, WorkoutExerciseValue, AsWorkoutExercise);
  }

  lemma {:induction false} WorkoutRoundTrip(w: Workout)
    ensures DecodeWorkout(EncodeWorkout(w)) == Ok(w)
  {
    var d := EncodeWorkout(w);
    assert Required(d, "id", AsUuid) == Ok(w.id);
    assert Required(d, "name", AsText) == Ok(w.name);
    assert Required(d, "date", AsDate) == Ok(w.date);
    assert Required(d, "duration", AsDouble) == Ok(w.duration);
    assert Required(d, "exercises", AsWorkoutExercises) == Ok(w.exercises) by {
      WorkoutExercisesRoundTrip(w.exercises);
    }
    assert Optional(d, "notes", AsText) == Ok(w.notes);
    assert Required(d, "workoutType", AsWorkoutType) == Ok(w.workoutType) by {
      ParseTagRoundTrip();
    }
  }

  // ---------------------------------------------------------- UserProfile

  function EncodeProfile(p: UserProfile): (d: Document)
    ensures ("profileImage" in d <==> p.profileImage.Some?)
    ensures ("height" in d <==> p.height.Some?) && ("weight" in d <==> p.weight.Some?)
    ensures forall k :: k in d ==> !d[k].Null?
  {
    var d := map[
      "id" := Text(p.id),
      "username" := Text(p.username),
      "email" := Text(p.email),
      "joinDate" := Timestamp(p.joinDate),
      "fitnessGoals" := TextItems(p.fitnessGoals)
    ];
    var d := Put(d, "profileImage", p.profileImage, TextValue);
    var d := Put(d, "height", p.height, (x: real) => Double(x));
    Put(d, "weight", p.weight, (x: real) => Double(x))
  }

  function DecodeProfile(doc: Document): (r: Result<UserProfile>)
    ensures r.Err? ==> IsCodingError(r.error)
    ensures "fitnessGoals" !in doc ==> r.Err?
    ensures r.Ok? ==> "id" in doc && doc["id"] == Text(r.value.id)
    ensures r.Ok? ==> "username" in doc && doc["username"] == Text(r.value.username)
    ensures r.Ok? ==> "email" in doc && doc["email"] == Text(r.value.email)
    ensures r.Ok? ==> "joinDate" in doc && doc["joinDate"] == Timestamp(r.value.joinDate)
  {
    var id :- Required(doc, "id", AsUuid);
    var username :- Required(doc, "username", AsText);
    var email :- Required(doc, "email", AsText);
    var joinDate :- Required(doc, "joinDate", AsDate);
    var image :- Optional(doc, "profileImage", AsText);
    var height :- Optional(doc, "height", AsDouble);
    var weight :- Optional(doc, "weight", AsDouble);
    var goals :- Required(doc, "fitnessGoals", AsTexts);
    Ok(UserProfile(id, username, email, joinDate, image, height, weight, goals))
  }

  lemma {:induction false} ProfileRoundTrip(p: UserProfile)
    ensures DecodeProfile(EncodeProfile(p)) == Ok(p)
  {
    var d := EncodeProfile(p);
    TextItemsRoundTrip(p.fitnessGoals);
    assert d["id"] == Text(p.id);
    assert d["username"] == Text(p.username);
    assert d["email"] == Text(p.email);
    assert d["joinDate"] == Timestamp(p.joinDate);
    assert d["fitnessGoals"] == TextItems(p.fitnessGoals);
    assert Required(d, "fitnessGoals", AsTexts) == Ok(p.fitnessGoals);
    assert p.profileImage.Some? ==> d["profileImage"] == Text(p.profileImage.value);
    assert p.height.Some? ==> d["height"] == Double(p.height.value);
    assert p.weight.Some? ==> d["weight"] == Double(p.weight.value);
  }
}

=== FILE: domain.dfy ===
/**
 The app's records and string-tagged enums (ContentView.swift, "Models" and
 "Enums"). Every enum case has a fixed raw string, and that string is what is
 persisted; `Parse` is the inverse of `Tag` that the decoder uses.
 */
module Domain {
  import opened Results

  /** A point in time (Swift `Date`, stored as a Firestore timestamp). */
  type Date = int

  predicate IsHexDigit(c: char) {
    '0' <= c <= '9' || 'A' <= c <= 'F' || 'a' <= c <= 'f'
  }

  /** The text form of a UUID: 8-4-4-4-12 hex digits separated by hyphens. */
  predicate IsUuidText(s: string) {
    && |s| == 36
    && forall i :: 0 <= i < |s| ==>
         if i == 8 || i == 13 || i == 18 || i == 23 then s[i] == '-' else IsHexDigit(s[i])
  }

  /** A UUID, represented by its `uuidString`. */
  type Uuid = s: string | IsUuidText(s) witness "00000000-0000-0000-0000-000000000000"

  // ---------------------------------------------------------------- enums

  datatype ExerciseCategory = Strength | Cardio | Flexibility | Balance | Functional

  function CategoryTag(c: ExerciseCategory): string {
    match c
    case Strength => "Strength"
    case Cardio => "Cardio"
    case Flexibility => "Flexibility"
    case Balance => "Balance"
    case Functional => "Functional"
  }

  /** `ExerciseCategory(rawValue:)`: the case whose tag is `s`, if any. */
  function ParseCategory(s: string): (r: Option<ExerciseCategory>)
    ensures r.Some? ==> CategoryTag(r.value) == s
    ensures r.None? ==> forall c :: CategoryTag(c) != s
  {
    if s == "Strength" then Some(Strength)
    else if s == "Cardio" then Some(Cardio)
    else if s == "Flexibility" then Some(Flexibility)
    else if s == "Balance" then Some(Balance)
    else if s == "Functional" then Some(Functional)
    else None
  }

  /** `ExerciseCategory.allCases`, in declaration order. */
  const AllCategories: seq<ExerciseCategory> := [Strength, Cardio, Flexibility, Balance, Functional]

  datatype MuscleGroup =
    | Chest | Back | Shoulders | Biceps | Triceps | Forearms
    | Abs | Quads | Hamstrings | Glutes | Calves | FullBody

  function MuscleTag(m: MuscleGroup): string {
    match m
    case Chest => "Chest"
    case Back => "Back"
    case Shoulders => "Shoulders"
    case Biceps => "Biceps"
    case Triceps => "Triceps"
    case Forearms => "Forearms"
    case Abs => "Abs"
    case Quads => "Quadriceps"
    case Hamstrings => "Hamstrings"
    case Glutes => "Glutes"
    case Calves => "Calves"
    case FullBody => "Full Body"
  }

  /** `MuscleGroup(rawValue:)`. */
  function ParseMuscle(s: string): (r: Option<MuscleGroup>)
    ensures r.Some? ==> MuscleTag(r.value) == s
    ensures r.None? ==> forall m :: MuscleTag(m) != s
  {
    if s == "Chest" then Some(Chest)
    else if s == "Back" then Some(Back)
    else if s == "Shoulders" then Some(Shoulders)
    else if s == "Biceps" then Some(Biceps)
    else if s == "Triceps" then Some(Triceps)
    else if s == "Forearms" then Some(Forearms)
    else if s == "Abs" then Some(Abs)
    else if s == "Quadriceps" then Some(Quads)
    else if s == "Hamstrings" then Some(Hamstrings)
    else if s == "Glutes" then Some(Glutes)
    else if s == "Calves" then Some(Calves)
    else if s == "Full Body" then Some(FullBody)
    else None
  }

  const AllMuscles: seq<MuscleGroup> :=
    [Chest, Back, Shoulders, Biceps, Triceps, Forearms, Abs, Quads, Hamstrings, Glutes, Calves, FullBody]

  datatype DifficultyLevel = Beginner | Intermediate | Advanced

  function DifficultyTag(d: DifficultyLevel): string {
    match d
    case Beginner => "Beginner"
    case Intermediate => "Intermediate"
    case Advanced => "Advanced"
  }

  /** `DifficultyLevel(rawValue:)`. */
  function ParseDifficulty(s: string): (r: Option<DifficultyLevel>)
    ensures r.Some? ==> DifficultyTag(r.value) == s
    ensures r.None? ==> forall d :: DifficultyTag(d) != s
  {
    if s == "Beginner" then Some(Beginner)
    else if s == "Intermediate" then Some(Intermediate)
    else if s == "Advanced" then Some(Advanced)
    else None
  }

  const AllDifficulties: seq<DifficultyLevel> := [Beginner, Intermediate, Advanced]

  datatype Equipment =
    | NoEquipment | Dumbbell | Barbell | Kettlebell | ResistanceBand | Machine
    | BodyWeight | Treadmill | Bicycle | JumpRope | OtherEquipment

  function EquipmentTag(e: Equipment): string {
    match e
    case NoEquipment => "None"
    case Dumbbell => "Dumbbell"
    case Barbell => "Barbell"
    case Kettlebell => "Kettlebell"
    case ResistanceBand => "Resistance Band"
    case Machine => "Machine"
    case BodyWeight => "Body Weight"
    case Treadmill => "Treadmill"
    case Bicycle => "Bicycle"
    case JumpRope => "Jump Rope"
    case OtherEquipment => "Other"
  }

  /** `Equipment(rawValue:)`. */
  function ParseEquipment(s: string): (r: Option<Equipment>)
    ensures r.Some? ==> EquipmentTag(r.value) == s
    ensures r.None? ==> forall e :: EquipmentTag(e) != s
  {
    if s == "None" then Some(NoEquipment)
    else if s == "Dumbbell" then Some(Dumbbell)
    else if s == "Barbell" then Some(Barbell)
    else if s == "Kettlebell" then Some(Kettlebell)
    else if s == "Resistance Band" then Some(ResistanceBand)
    else if s == "Machine" then Some(Machine)
    else if s == "Body Weight" then Some(BodyWeight)
    else if s == "Treadmill" then Some(Treadmill)
    else if s == "Bicycle" then Some(Bicycle)
    else if s == "Jump Rope" then Some(JumpRope)
    else if s == "Other" then Some(OtherEquipment)
    else None
  }

  const AllEquipment: seq<Equipment> :=
    [NoEquipment, Dumbbell, Barbell, Kettlebell, ResistanceBand, Machine,
     BodyWeight, Treadmill, Bicycle, JumpRope, OtherEquipment]

  datatype WorkoutType = StrengthWorkout | CardioWorkout | Hiit | FlexibilityWorkout | Custom

  function WorkoutTypeTag(t: WorkoutType): string {
    match t
    case StrengthWorkout => "Strength"
    case CardioWorkout => "Cardio"
    case Hiit => "HIIT"
    case FlexibilityWorkout => "Flexibility"
    case Custom => "Custom"
  }

  /** `WorkoutType(rawValue:)`. */
  function ParseWorkoutType(s: string): (r: Option<WorkoutType>)
    ensures r.Some? ==> WorkoutTypeTag(r.value) == s
    ensures r.None? ==> forall t :: WorkoutTypeTag(t) != s
  {
    if s == "Strength" then Some(StrengthWorkout)
    else if s == "Cardio" then Some(CardioWorkout)
    else if s == "HIIT" then Some(Hiit)
    else if s == "Flexibility" then Some(FlexibilityWorkout)
    else if s == "Custom" then Some(Custom)
    else None
  }

  const AllWorkoutTypes: seq<WorkoutType> := [StrengthWorkout, CardioWorkout, Hiit, FlexibilityWorkout, Custom]

  /** Within each enum the raw tags are pairwise distinct, and `allCases` lists every case once. */
  lemma TagsDistinct()
    ensures forall i, j :: 0 <= i < j < |AllCategories| ==> CategoryTag(AllCategories[i]) != CategoryTag(AllCategories[j])
    ensures forall i, j :: 0 <= i < j < |AllMuscles| ==> MuscleTag(AllMuscles[i]) != MuscleTag(AllMuscles[j])
    ensures forall i, j :: 0 <= i < j < |AllDifficulties| ==> DifficultyTag(AllDifficulties[i]) != DifficultyTag(AllDifficulties[j])
    ensures forall i, j :: 0 <= i < j < |AllEquipment| ==> EquipmentTag(AllEquipment[i]) != EquipmentTag(AllEquipment[j])
    ensures forall i, j :: 0 <= i < j < |AllWorkoutTypes| ==> WorkoutTypeTag(AllWorkoutTypes[i]) != WorkoutTypeTag(AllWorkoutTypes[j])
    ensures forall c: ExerciseCategory :: c in AllCategories
    ensures forall m: MuscleGroup :: m in AllMuscles
    ensures forall d: DifficultyLevel :: d in AllDifficulties
    ensures forall e: Equipment :: e in AllEquipment
    ensures forall t: WorkoutType :: t in AllWorkoutTypes
  {
    forall c: ExerciseCategory ensures c in AllCategories {
      match c
      case Strength => assert AllCategories[0] == c;
      case Cardio => assert AllCategories[1] == c;
      case Flexibility => assert AllCategories[2] == c;
      case Balance => assert AllCategories[3] == c;
      case Functional => assert AllCategories[4] == c;
    }
    forall m: MuscleGroup ensures m in AllMuscles {
      match m
      case Chest => assert AllMuscles[0] == m;
      case Back => assert AllMuscles[1] == m;
      case Shoulders => assert AllMuscles[2] == m;
      case Biceps => assert AllMuscles[3] == m;
      case Triceps => assert AllMuscles[4] == m;
      case Forearms => assert AllMuscles[5] == m;
      case Abs => assert AllMuscles[6] == m;
      case Quads => assert AllMuscles[7] == m;
      case Hamstrings => assert AllMuscles[8] == m;
      case Glutes => assert AllMuscles[9] == m;
      case Calves => assert AllMuscles[10] == m;
      case FullBody => assert AllMuscles[11] == m;
    }
    forall d: DifficultyLevel ensures d in AllDifficulties {
      match d
      case Beginner => assert AllDifficulties[0] == d;
      case Intermediate => assert AllDifficulties[1] == d;
      case Advanced => assert AllDifficulties[2] == d;
    }
    forall e: Equipment ensures e in AllEquipment {
      match e
      case NoEquipment => assert AllEquipment[0] == e;
      case Dumbbell => assert AllEquipment[1] == e;
      case Barbell => assert AllEquipment[2] == e;
      case Kettlebell => assert AllEquipment[3] == e;
      case ResistanceBand => assert AllEquipment[4] == e;
      case Machine => assert AllEquipment[5] == e;
      case BodyWeight => assert AllEquipment[6] == e;
      case Treadmill => assert AllEquipment[7] == e;
      case Bicycle => assert AllEquipment[8] == e;
      case JumpRope => assert AllEquipment[9] == e;
      case OtherEquipment => assert AllEquipment[10] == e;
    }
    forall t: WorkoutType ensures t in AllWorkoutTypes {
      match t
      case StrengthWorkout => assert AllWorkoutTypes[0] == t;
      case CardioWorkout => assert AllWorkoutTypes[1] == t;
      case Hiit => assert AllWorkoutTypes[2] == t;
      case FlexibilityWorkout => assert AllWorkoutTypes[3] == t;
      case Custom => assert AllWorkoutTypes[4] == t;
    }
  }

  /** Parsing a case's tag gives the case back, for every enum. */
  lemma ParseTagRoundTrip()
    ensures forall c :: ParseCategory(CategoryTag(c)) == Some(c)
    ensures forall m :: ParseMuscle(MuscleTag(m)) == Some(m)
    ensures forall d :: ParseDifficulty(DifficultyTag(d)) == Some(d)
    ensures forall e :: ParseEquipment(EquipmentTag(e)) == Some(e)
    ensures forall t :: ParseWorkoutType(WorkoutTypeTag(t)) == Some(t)
  {
  }

  // -------------------------------------------------------------- records

  datatype UserProfile = UserProfile(
    id: Uuid,
    username: string,
    email: string,
    joinDate: Date,
    profileImage: Option<string>,
    height: Option<real>,           // cm
    weight: Option<real>,           // kg
    fitnessGoals: seq<string>)

  datatype Exercise = Exercise(
    id: Uuid,
    name: string,
    category: ExerciseCategory,
    muscleGroups: seq<MuscleGroup>,
    description: string,
    instructions: seq<string>,
    difficultyLevel: DifficultyLevel,
    equipment: seq<Equipment>,
    imageNames: seq<string>)

  datatype Workout = Workout(
    id: Uuid,
    name: string,
    date: Date,
    duration: real,                 // seconds
    exercises: seq<WorkoutExercise>,
    notes: Option<string>,
    workoutType: WorkoutType)

  /** An exercise as logged in a workout: a value copy of the library exercise. */
  datatype WorkoutExercise = WorkoutExercise(
    id: Uuid,
    exercise: Exercise,
    sets: seq<ExerciseSet>,
    notes: Option<string>)

  datatype ExerciseSet = ExerciseSet(
    id: Uuid,
    reps: Option<int>,
    weight: Option<real>,           // kg
    duration: Option<real>,         // seconds
    distance: Option<real>,         // meters
    completed: bool)

  /** Newest first: the order of the workouts list and of the workouts query. */
  predicate NewestFirst(ws: seq<Workout>) {
    forall i, j :: 0 <= i < j < |ws| ==> ws[i].date >= ws[j].date
  }

  /** `ExerciseSet(id:)`: every other property takes its declared default. */
  function BlankSet(id: Uuid): (s: ExerciseSet)
    ensures s.id == id && IsBlank(s)
  {
    ExerciseSet(id, None, None, None, None, false)
  }

  /** A set nobody has filled in yet. */
  predicate IsBlank(s: ExerciseSet) {
    s.reps.None? && s.weight.None? && s.duration.None? && s.distance.None? && !s.completed
  }

  // ----------------------------------------------------------- sample data

  /** The identifiers `UUID()` hands the three sample exercises when the global is first used. */
  datatype SampleIds = SampleIds(benchPress: Uuid, pullUp: Uuid, running: Uuid)

  /** The first sample: the barbell bench press. */
  function BenchPress(id: Uuid): Exercise {
    Exercise(
      id,
      "Barbell Bench Press",
      Strength,
      [Chest, Shoulders, Triceps],
      "A compound exercise that targets the chest, shoulders, and triceps.",
      [ "Lie on a flat bench with your feet flat on the floor.",
        "Grip the barbell slightly wider than shoulder-width apart.",
        "Lower the barbell to your chest, keeping your elbows at a 45-degree angle.",
        "Press the barbell back up to the starting position." ],
      Intermediate,
      [Barbell],
      ["bench_press_1", "bench_press_2"])
  }

  /** The second sample: the pull-up. */
  function PullUp(id: Uuid): Exercise {
    Exercise(
      id,
      "Pull-up",
      Strength,
      [Back, Biceps, Forearms],
      "A bodyweight exercise that targets the back and arms.",
      [ "Hang from a pull-up bar with hands slightly wider than shoulder-width apart.",
        "Pull your body up until your chin is over the bar.",
        "Lower yourself back down with control." ],
      Intermediate,
      [BodyWeight],
      ["pullup_1"])
  }

  /** The third sample: running. */
  function Running(id: Uuid): Exercise {
    Exercise(
      id,
      "Running",
      Cardio,
      [Quads, Hamstrings, Calves, Glutes],
      "A cardiovascular exercise that improves endurance and burns calories.",
      [ "Start with a warm-up walk or light jog.",
        "Maintain good posture with a slight forward lean.",
        "Land midfoot and roll through to push off with your toes.",
        "Cool down with a walk at the end." ],
      Beginner,
      [NoEquipment, Treadmill],
      ["running_1"])
  }

  /** `sampleExercises`, the built-in library used when the remote one is empty or unreachable. */
  function SampleExercises(ids: SampleIds): (r: seq<Exercise>)
    ensures |r| == 3
  {
    [BenchPress(ids.benchPress), PullUp(ids.pullUp), Running(ids.running)]
  }
}

=== FILE: firebase_manager.dfy ===
/**
 The manager's operations (FirebaseManager.swift) against the backend model:
 account creation with its compensating delete, sign-in with the
 missing-profile repair, profile/exercise/workout persistence, and the image
 storage keys. Each operation returns the backend after it and the result its
 completion handler receives; the SDK's replies are parameters.
 */
module FirebaseManager {
  import opened Results
  import opened Domain
  import opened Documents
  import opened Store

  const NotFoundMessage: string := "User profile not found"

  /** The test both repair paths apply to a fetch error: manager domain and the not-found text. */
  predicate IsProfileNotFound(e: Error) {
    e.domain == ManagerDomain && e.description == NotFoundMessage
  }

  /**
   The test singles out the manager's own not-found error: the other errors
   the manager builds, and a coding error or an SDK error that happens to
   carry the same text, do not trigger a repair.
   */
  lemma NotFoundTestIsExact(code: int, domain: string)
    ensures IsProfileNotFound(Fault(NotFoundMessage))
    ensures !IsProfileNotFound(Fault("User document is nil"))
    ensures !IsProfileNotFound(Fault("No user is currently signed in"))
    ensures !IsProfileNotFound(Missing) && !IsProfileNotFound(Malformed)
    ensures domain != ManagerDomain ==> !IsProfileNotFound(Error(domain, code, NotFoundMessage))
  {
  }

  // ------------------------------------------------------ default profile

  /** The text before the first "@" (all of it when there is none). */
  function LocalPart(s: string): (r: string)
    ensures r <= s
    ensures '@' !in r
    ensures |r| < |s| ==> s[|r|] == '@'
  {
    if s == [] || s[0] == '@' then [] else [s[0]] + LocalPart(s[1..])
  }

  /** `email?.components(separatedBy: "@").first ?? "User"`. */
  function DefaultUsername(email: Option<string>): (r: string)
    ensures email.None? ==> r == "User"
    ensures email.Some? ==> r <= email.value && '@' !in r
    ensures email.Some? && |r| < |email.value| ==> email.value[|r|] == '@'
  {
    if email.Some? then LocalPart(email.value) else "User"
  }

  /** The profile the repair paths create for an identity that has none. */
  function DefaultProfile(user: AuthUser, id: Uuid, now: Date): (p: UserProfile)
    ensures p.id == id && p.joinDate == now && p.username == DefaultUsername(user.email)
    ensures p.email == (if user.email.Some? then user.email.value else "")
    ensures p.profileImage.None? && p.height.None? && p.weight.None? && p.fitnessGoals == []
    ensures EncodeProfile(p).Keys == {"id", "username", "email", "joinDate", "fitnessGoals"}
  {
    UserProfile(id, DefaultUsername(user.email), if user.email.Some? then user.email.value else "", now,
                None, None, None, [])
  }

  // --------------------------------------------------------------- writes

  /** `db` and `db'` hold the same documents everywhere except possibly at `path`. */
  predicate SameElsewhere(db: Db, db': Db, path: Path) {
    && (forall q :: q in db && q != path ==> q in db' && db'[q] == db[q])
    && (forall q :: q in db' && q != path ==> q in db)
  }

  /** `setData` / `delete` on one document: applied when the completion reports no error. */
  function Commit(b: Backend, path: Path, doc: Option<Document>, err: Option<Error>): (r: Step<()>)
    ensures r.backend.identities == b.identities && r.backend.session == b.session
    ensures r.result.Ok? <==> err.None?
    ensures err.Some? ==> r.result == Err(err.value) && r.backend.db == b.db
    ensures SameElsewhere(b.db, r.backend.db, path)
    ensures err.None? && doc.Some? ==> path in r.backend.db && r.backend.db[path] == doc.value
    ensures err.None? && doc.None? ==> path !in r.backend.db
  {
    if err.Some? then Step(b, Err(err.value))
    else if doc.Some? then Step(b.(db := b.db[path := doc.value]), Ok(()))
    else Step(b.(db := b.db - {path}), Ok(()))
  }

  // -------------------------------------------------------------- profile

  /** `saveUserProfile`: overwrites `users/{uid}` with the encoded profile. */
  function SaveUserProfile(b: Backend, p: UserProfile, uid: string, err: Option<Error>): (r: Step<()>)
    ensures r.backend.identities == b.identities && r.backend.session == b.session
    ensures err.Some? ==> r.result == Err(err.value) && r.backend.db == b.db
    ensures err.None? ==> r.result.Ok? && SameElsewhere(b.db, r.backend.db, ProfilePath(uid))
    ensures err.None? ==> ProfilePath(uid) in r.backend.db && DecodeProfile(r.backend.db[ProfilePath(uid)]) == Ok(p)
  {
    ProfileRoundTrip(p);
    Commit(b, ProfilePath(uid), Some(EncodeProfile(p)), err)
  }

  /** `updateUserProfile`: the same whole-document overwrite, so nothing of the old document survives. */
  function UpdateUserProfile(b: Backend, p: UserProfile, uid: string, err: Option<Error>): (r: Step<()>)
    ensures r.backend.identities == b.identities && r.backend.session == b.session
    ensures err.None? ==> r.result.Ok? && ProfilePath(uid) in r.backend.db && r.backend.db[ProfilePath(uid)] == EncodeProfile(p)
    ensures err.None? ==> SameElsewhere(b.db, r.backend.db, ProfilePath(uid))
    ensures err.Some? ==> r == Step(b, Err(err.value))
  {
    SaveUserProfile(b, p, uid, err)
  }

  /**
   `fetchUserProfile`: a transport error passes through, a missing snapshot
   and a missing document become manager errors, a stored document is decoded.
   */
  function FetchUserProfile(db: Db, uid: string, link: Link): (r: Result<UserProfile>)
    ensures (r.Err? && IsProfileNotFound(r.error)) <==>
              (link.Online? && ProfilePath(uid) !in db) || (link.Offline? && IsProfileNotFound(link.error))
    ensures r.Ok? ==> link.Online? && ProfilePath(uid) in db
    ensures link.Online? && ProfilePath(uid) !in db ==> r == Err(Fault(NotFoundMessage))
    ensures link.Online? && ProfilePath(uid) in db ==> r == DecodeProfile(db[ProfilePath(uid)])
    ensures link.Offline? ==> r == Err(link.error)
    ensures link.Silent? ==> r == Err(Fault("User document is nil"))
  {
    match GetDocument(db, ProfilePath(uid), link)
    case Failed(e) => Err(e)
    case Empty => Err(Fault("User document is nil"))
    case Delivered(snapshot) =>
      if snapshot.None? then Err(Fault(NotFoundMessage)) else DecodeProfile(snapshot.value)
  }

  /** Whatever is saved at `users/{uid}` is what a later fetch returns. */
  lemma SaveThenFetchProfile(b: Backend, p: UserProfile, uid: string)
    ensures FetchUserProfile(SaveUserProfile(b, p, uid, None).backend.db, uid, Online) == Ok(p)
  {
  }

  // ------------------------------------------------------- authentication

  /**
   `createUser`: registers the identity, then saves a fresh profile under its
   uid; if that save fails the identity is deleted again (best effort) and the
   save error is reported.
   */
  function CreateUser(b: Backend, email: string, username: string, reply: Reply<AuthUser>,
                      profileId: Uuid, now: Date, saveErr: Option<Error>, deleteErr: Option<Error>): (r: Step<UserProfile>)
    ensures reply.Failed? ==> r == Step(b, Err(reply.error))
    ensures reply.Empty? ==> r == Step(b, Err(Fault("Failed to create user")))
    ensures reply.Delivered? && saveErr.None? ==>
              && r.result == Ok(UserProfile(profileId, username, email, now, None, None, None, []))
              && FetchUserProfile(r.backend.db, reply.value.uid, Online) == r.result
              && r.backend.identities == b.identities + {reply.value.uid} && r.backend.session == Some(reply.value)
              && SameElsewhere(b.db, r.backend.db, ProfilePath(reply.value.uid))
    ensures reply.Delivered? && saveErr.Some? ==>
              && r.result == Err(saveErr.value) && r.backend.db == b.db
              && (deleteErr.None? ==> reply.value.uid !in r.backend.identities && r.backend.session.None?)
              && (deleteErr.Some? ==> reply.value.uid in r.backend.identities)
  {
    match reply
    case Failed(e) => Step(b, Err(e))
    case Empty => Step(b, Err(Fault("Failed to create user")))
    case Delivered(user) =>
      var registered := b.(identities := b.identities + {user.uid}, session := Some(user));
      var profile := UserProfile(profileId, username, email, now, None, None, None, []);
      var saved := SaveUserProfile(registered, profile, user.uid, saveErr);
      if saved.result.Ok? then Step(saved.backend, Ok(profile))
      else
        var rolledBack :=
          if deleteErr.None? then registered.(identities := registered.identities - {user.uid}, session := None)
          else registered;
        Step(rolledBack, Err(saved.result.error))
  }

  /** A failed profile save leaves no orphaned identity behind once the delete goes through. */
  lemma CreateUserRollsBack(b: Backend, email: string, username: string, user: AuthUser,
                            profileId: Uuid, now: Date, saveErr: Error)
    requires user.uid !in b.identities
    ensures var r := CreateUser(b, email, username, Delivered(user), profileId, now, Some(saveErr), None);
            r.backend == b.(session := None) && r.result == Err(saveErr)
  {
  }

  /**
   The repair both `signIn` (debug builds) and `ensureUserProfileExists`
   apply to a failed fetch: on the not-found error, save and return a default
   profile; pass any other error through.
   */
  function Recover(b: Backend, user: AuthUser, e: Error, profileId: Uuid, now: Date, saveErr: Option<Error>): (r: Step<UserProfile>)
    ensures !IsProfileNotFound(e) ==> r == Step(b, Err(e))
    ensures IsProfileNotFound(e) && saveErr.Some? ==> r == Step(b, Err(saveErr.value))
    ensures IsProfileNotFound(e) && saveErr.None? ==>
              && r.result.Ok? && r.result.value.fitnessGoals == []
              && r.result.value.username == DefaultUsername(user.email)
              && r.result.value.email == (if user.email.Some? then user.email.value else "")
              && r.result.value.id == profileId && r.result.value.joinDate == now
              && r.result.value.profileImage.None? && r.result.value.height.None? && r.result.value.weight.None?
              && FetchUserProfile(r.backend.db, user.uid, Online) == Ok(r.result.value)
              && SameElsewhere(b.db, r.backend.db, ProfilePath(user.uid))
  {
    if IsProfileNotFound(e) then
      var profile := DefaultProfile(user, profileId, now);
      var saved := SaveUserProfile(b, profile, user.uid, saveErr);
      if saved.result.Ok? then Step(saved.backend, Ok(profile)) else Step(saved.backend, Err(saved.result.error))
    else Step(b, Err(e))
  }

  /**
   `signIn`: authenticates, then fetches the profile. Only a debug build
   repairs a missing profile; a release build reports every fetch error.
   */
  function SignIn(b: Backend, debug: bool, reply: Reply<AuthUser>, link: Link,
                  profileId: Uuid, now: Date, saveErr: Option<Error>): (r: Step<UserProfile>)
    ensures reply.Failed? ==> r == Step(b, Err(reply.error))
    ensures reply.Empty? ==> r == Step(b, Err(Fault("Failed to sign in")))
    ensures reply.Delivered? ==> r.backend.session == Some(reply.value) && r.backend.identities == b.identities
    ensures reply.Delivered? && !debug ==>
              r == Step(b.(session := Some(reply.value)), FetchUserProfile(b.db, reply.value.uid, link))
    ensures reply.Delivered? && debug ==>
              var f := FetchUserProfile(b.db, reply.value.uid, link);
              && (f.Ok? || !IsProfileNotFound(f.error) ==> r == Step(b.(session := Some(reply.value)), f))
              && (f.Err? && IsProfileNotFound(f.error) ==>
                    r == Recover(b.(session := Some(reply.value)), reply.value, f.error, profileId, now, saveErr))
  {
    match reply
    case Failed(e) => Step(b, Err(e))
    case Empty => Step(b, Err(Fault("Failed to sign in")))
    case Delivered(user) =>
      var signedIn := b.(session := Some(user));
      var fetched := FetchUserProfile(signedIn.db, user.uid, link);
      if fetched.Ok? then Step(signedIn, fetched)
      else if debug then Recover(signedIn, user, fetched.error, profileId, now, saveErr)
      else Step(signedIn, fetched)
  }

  /**
   In a debug build, an identity without a profile document signs in
   successfully and ends up with exactly one profile, keyed by its uid, whose
   username is the email's text before "@".
   */
  lemma SignInRepairsMissingProfile(b: Backend, user: AuthUser, profileId: Uuid, now: Date)
    requires ProfilePath(user.uid) !in b.db
    ensures var r := SignIn(b, true, Delivered(user), Online, profileId, now, None);
            && r.result.Ok?
            && r.result.value.username == DefaultUsername(user.email)
            && r.backend.db.Keys == b.db.Keys + {ProfilePath(user.uid)}
            && FetchUserProfile(r.backend.db, user.uid, Online) == r.result
  {
  }

  /** A release build reports the missing profile and writes nothing. */
  lemma SignInReleaseDoesNotRepair(b: Backend, user: AuthUser, profileId: Uuid, now: Date, saveErr: Option<Error>)
    requires ProfilePath(user.uid) !in b.db
    ensures var r := SignIn(b, false, Delivered(user), Online, profileId, now, saveErr);
            r.result == Err(Fault(NotFoundMessage)) && r.backend.db == b.db
  {
  }

  /** A stored profile is never overwritten by sign-in, even when it fails to decode. */
  lemma SignInKeepsStoredProfile(b: Backend, debug: bool, user: AuthUser, profileId: Uuid, now: Date, saveErr: Option<Error>)
    requires ProfilePath(user.uid) in b.db
    ensures var r := SignIn(b, debug, Delivered(user), Online, profileId, now, saveErr);
            r.backend.db == b.db && r.result == DecodeProfile(b.db[ProfilePath(user.uid)])
  {
  }

  /** `ensureUserProfileExists`: the repair for the already signed-in identity, in every build. */
  function EnsureUserProfileExists(b: Backend, link: Link, profileId: Uuid, now: Date, saveErr: Option<Error>): (r: Step<UserProfile>)
    ensures b.session.None? ==> r == Step(b, Err(Fault("No user is currently signed in")))
    ensures b.session.Some? && link.Online? && ProfilePath(b.session.value.uid) in b.db ==>
              r == Step(b, DecodeProfile(b.db[ProfilePath(b.session.value.uid)]))
    ensures b.session.Some? && link.Online? && ProfilePath(b.session.value.uid) !in b.db && saveErr.None? ==>
              && r.result.Ok? && r.result.value.username == DefaultUsername(b.session.value.email)
              && FetchUserProfile(r.backend.db, b.session.value.uid, Online) == r.result
    ensures b.session.Some? ==>
              var f := FetchUserProfile(b.db, b.session.value.uid, link);
              && (f.Err? && !IsProfileNotFound(f.error) ==> r == Step(b, f))
              && (f.Err? && IsProfileNotFound(f.error) && saveErr.Some? ==> r == Step(b, Err(saveErr.value)))
              && (f.Err? && IsProfileNotFound(f.error) ==> r == Recover(b, b.session.value, f.error, profileId, now, saveErr))
    ensures r.backend.session == b.session && r.backend.identities == b.identities
  {
    if b.session.None? then Step(b, Err(Fault("No user is currently signed in")))
    else
      var user := b.session.value;
      var fetched := FetchUserProfile(b.db, user.uid, link);
      if fetched.Ok? then Step(b, fetched)
      else Recover(b, user, fetched.error, profileId, now, saveErr)
  }

  /** `signOut`: clears the session unless the provider throws. */
  function SignOut(b: Backend, err: Option<Error>): (r: Step<()>)
    ensures err.None? ==> r.result.Ok? && r.backend.session.None?
    ensures err.Some? ==> r == Step(b, Err(err.value))
    ensures r.backend.db == b.db && r.backend.identities == b.identities
  {
    if err.None? then Step(b.(session := None), Ok(())) else Step(b, Err(err.value))
  }

  /** `resetPassword`: success only means the provider accepted the request. */
  function ResetPassword(err: Option<Error>): (r: Result<()>)
    ensures r.Ok? <==> err.None?
    ensures r.Err? ==> r.error == err.value
  {
    if err.None? then Ok(()) else Err(err.value)
  }

  // ------------------------------------------------------------ exercises

  function Objects(docs: seq<DocSnapshot>): (r: seq<Value>)
    ensures |r| == |docs| && forall i :: 0 <= i < |docs| ==> r[i] == Object(docs[i].data)
  {
    seq(|docs|, i requires 0 <= i < |docs| => Object(docs[i].data))
  }

  function SaveExercise(b: Backend, x: Exercise, err: Option<Error>): (r: Step<()>)
    ensures r.backend.identities == b.identities && r.backend.session == b.session
    ensures err.Some? ==> r.result == Err(err.value) && r.backend.db == b.db
    ensures err.None? ==> r.result.Ok? && SameElsewhere(b.db, r.backend.db, ExercisePath(x.id))
    ensures err.None? ==> ExercisePath(x.id) in r.backend.db && DecodeExercise(r.backend.db[ExercisePath(x.id)]) == Ok(x)
  {
    ExerciseRoundTrip(x);
    Commit(b, ExercisePath(x.id), Some(EncodeExercise(x)), err)
  }

  /** `fetchExercises`: no snapshot means no exercises; one undecodable document fails the whole fetch. */
  function FetchExercises(reply: Reply<seq<DocSnapshot>>): (r: Result<seq<Exercise>>)
    ensures reply.Failed? ==> r == Err(reply.error)
    ensures reply.Empty? ==> r == Ok([])
    ensures reply.Delivered? ==>
              (r.Ok? <==> forall i :: 0 <= i < |reply.value| ==> DecodeExercise(reply.value[i].data).Ok?)
    ensures reply.Delivered? && r.Ok? ==>
              |r.value| == |reply.value| &&
              forall i :: 0 <= i < |reply.value| ==> DecodeExercise(reply.value[i].data) == Ok(r.value[i])
    ensures reply.Delivered? && r.Err? ==>
              exists i :: 0 <= i < |reply.value| && DecodeExercise(reply.value[i].data) == Err(r.error) &&
                          forall j :: 0 <= j < i ==> DecodeExercise(reply.value[j].data).Ok?
  {
    match reply
    case Failed(e) => Err(e)
    case Empty => Ok([])
    case Delivered(docs) =>
      var items := Objects(docs);
      assert forall i :: 0 <= i < |docs| ==> AsExercise(items[i]) == DecodeExercise(docs[i].data);
      DecodeItems(items, AsExercise)
  }

  function DeleteExercise(b: Backend, id: Uuid, err: Option<Error>): (r: Step<()>)
    ensures r.backend.identities == b.identities && r.backend.session == b.session
    ensures err.None? ==> r.result.Ok? && ExercisePath(id) !in r.backend.db
    ensures err.Some? ==> r == Step(b, Err(err.value))
    ensures SameElsewhere(b.db, r.backend.db, ExercisePath(id))
  {
    Commit(b, ExercisePath(id), None, err)
  }

  // ------------------------------------------------------------- workouts

  function SaveWorkout(b: Backend, w: Workout, uid: string, err: Option<Error>): (r: Step<()>)
    ensures r.backend.identities == b.identities && r.backend.session == b.session
    ensures err.Some? ==> r.result == Err(err.value) && r.backend.db == b.db
    ensures err.None? ==> r.result.Ok? && SameElsewhere(b.db, r.backend.db, WorkoutPath(uid, w.id))
    ensures err.None? ==> WorkoutPath(uid, w.id) in r.backend.db &&
                          r.backend.db[WorkoutPath(uid, w.id)] == EncodeWorkout(w)
  {
    Commit(b, WorkoutPath(uid, w.id), Some(EncodeWorkout(w)), err)
  }

  /** `fetchWorkouts`: as `fetchExercises`, over the user's workouts in the order the store returns them. */
  function FetchWorkouts(reply: Reply<seq<DocSnapshot>>): (r: Result<seq<Workout>>)
    ensures reply.Failed? ==> r == Err(reply.error)
    ensures reply.Empty? ==> r == Ok([])
    ensures reply.Delivered? ==>
              (r.Ok? <==> forall i :: 0 <= i < |reply.value| ==> DecodeWorkout(reply.value[i].data).Ok?)
    ensures reply.Delivered? && r.Ok? ==>
              |r.value| == |reply.value| &&
              forall i :: 0 <= i < |reply.value| ==> DecodeWorkout(reply.value[i].data) == Ok(r.value[i])
    ensures reply.Delivered? && r.Err? ==>
              exists i :: 0 <= i < |reply.value| && DecodeWorkout(reply.value[i].data) == Err(r.error) &&
                          forall j :: 0 <= j < i ==> DecodeWorkout(reply.value[j].data).Ok?
  {
    match reply
    case Failed(e) => Err(e)
    case Empty => Ok([])
    case Delivered(docs) =>
      var items := Objects(docs);
      assert forall i :: 0 <= i < |docs| ==> AsWorkout(items[i]) == DecodeWorkout(docs[i].data);
      DecodeItems(items, AsWorkout)
  }

  function AsWorkout(v: Value): Result<Workout> {
    if v.Object? then DecodeWorkout(v.fields) else Err(Mismatch(v))
  }

  function DeleteWorkout(b: Backend, id: Uuid, uid: string, err: Option<Error>): (r: Step<()>)
    ensures r.backend.identities == b.identities && r.backend.session == b.session
    ensures err.None? ==> r.result.Ok? && WorkoutPath(uid, id) !in r.backend.db
    ensures err.Some? ==> r == Step(b, Err(err.value))
    ensures SameElsewhere(b.db, r.backend.db, WorkoutPath(uid, id))
  {
    Commit(b, WorkoutPath(uid, id), None, err)
  }

  // ------------------------------------------------------ store properties

  /** Saving the same record twice leaves the store as saving it once. */
  lemma SavesAreIdempotent(b: Backend, p: UserProfile, uid: string, x: Exercise, w: Workout)
    ensures SaveUserProfile(SaveUserProfile(b, p, uid, None).backend, p, uid, None) == SaveUserProfile(b, p, uid, None)
    ensures SaveExercise(SaveExercise(b, x, None).backend, x, None) == SaveExercise(b, x, None)
    ensures SaveWorkout(SaveWorkout(b, w, uid, None).backend, w, uid, None) == SaveWorkout(b, w, uid, None)
  {
    CommitTwice(b, ProfilePath(uid), EncodeProfile(p));
    CommitTwice(b, ExercisePath(x.id), EncodeExercise(x));
    CommitTwice(b, WorkoutPath(uid, w.id), EncodeWorkout(w));
  }

  /** Writing the same document twice is writing it once. */
  lemma CommitTwice(b: Backend, path: Path, doc: Document)
    ensures Commit(Commit(b, path, Some(doc), None).backend, path, Some(doc), None) == Commit(b, path, Some(doc), None)
  {
    assert b.db[path := doc][path := doc] == b.db[path := doc];
  }

  /** The workouts query, answered faithfully, decodes newest first. */
  lemma FetchWorkoutsNewestFirst(db: Db, uid: string, docs: seq<DocSnapshot>)
    requires AnswersDateQuery(db, WorkoutsCollection(uid), docs)
    requires FetchWorkouts(Delivered(docs)).Ok?
    ensures NewestFirst(FetchWorkouts(Delivered(docs)).value)
  {
  }

  /** An empty collection is fetched as an empty list, not an error. */
  lemma FetchEmptyCollections(db: Db, uid: string, exerciseDocs: seq<DocSnapshot>, workoutDocs: seq<DocSnapshot>)
    requires ChildIds(db, ExercisesCollection) == {} && AnswersQuery(db, ExercisesCollection, exerciseDocs)
    requires ChildIds(db, WorkoutsCollection(uid)) == {} && AnswersDateQuery(db, WorkoutsCollection(uid), workoutDocs)
    ensures FetchExercises(Delivered(exerciseDocs)) == Ok([])
    ensures FetchWorkouts(Delivered(workoutDocs)) == Ok([])
  {
    if |workoutDocs| > 0 {
      var coll := WorkoutsCollection(uid);
      assert coll + [workoutDocs[0].id] in db;
      ChildIdsMembership(db, coll, workoutDocs[0].id);
    }
  }

  /** Every workout document of `uid` is stored under its own "id" field. */
  predicate WorkoutsKeyed(db: Db, uid: string) {
    forall p :: p in db && |p| == 4 && p[..3] == WorkoutsCollection(uid) ==>
      "id" in db[p] && db[p]["id"] == Text(p[3])
  }

  /** Saving and deleting workouts keep every workout document stored under its own id. */
  lemma WorkoutWritesKeepKeys(b: Backend, uid: string, w: Workout, id: Uuid, err: Option<Error>)
    requires WorkoutsKeyed(b.db, uid)
    ensures WorkoutsKeyed(SaveWorkout(b, w, uid, err).backend.db, uid)
    ensures WorkoutsKeyed(DeleteWorkout(b, id, uid, err).backend.db, uid)
  {
  }

  /** After a successful delete, no fetch of the user's workouts returns that workout. */
  lemma DeletedWorkoutIsGone(b: Backend, uid: string, id: Uuid, docs: seq<DocSnapshot>)
    requires WorkoutsKeyed(b.db, uid)
    requires AnswersDateQuery(DeleteWorkout(b, id, uid, None).backend.db, WorkoutsCollection(uid), docs)
    requires FetchWorkouts(Delivered(docs)).Ok?
    ensures forall w :: w in FetchWorkouts(Delivered(docs)).value ==> w.id != id
  {
  }

  /**
   A store holding a workout's encoding at its path, as a successful
   `SaveWorkout` leaves it, answers every decodable fetch with that workout.
   */
  lemma {:induction false} SavedWorkoutIsFetched(db: Db, uid: string, w: Workout, docs: seq<DocSnapshot>)
    requires WorkoutPath(uid, w.id) in db && db[WorkoutPath(uid, w.id)] == EncodeWorkout(w)
    requires AnswersDateQuery(db, WorkoutsCollection(uid), docs)
    requires FetchWorkouts(Delivered(docs)).Ok?
    ensures w in FetchWorkouts(Delivered(docs)).value
  {
    var coll := WorkoutsCollection(uid);
    DatedChildIdsMembership(db, coll, w.id);
    var i :| 0 <= i < |docs| && docs[i].id == w.id;
    assert docs[i].data == EncodeWorkout(w);
    WorkoutRoundTrip(w);
    assert FetchWorkouts(Delivered(docs)).value[i] == w;
  }
}

=== FILE: results.dfy ===
/**
 Failure-carrying values shared by every module: optional values, the
 `NSError`-shaped errors the app builds or receives from the backend SDK, and
 a `Result` that can be used with `:-`.
 */
module Results {

  /** Swift's `T?`. */
  datatype Option<+T> = None | Some(value: T)

  /**
   An `NSError`: a domain, a numeric code and the text that Swift exposes as
   `localizedDescription` (the only part the app ever shows or inspects).
   */
  datatype Error = Error(domain: string, code: int, description: string)

  /** Swift's `Result<T, Error>`. */
  datatype Result<+T> = Ok(value: T) | Err(error: Error) {

    predicate IsFailure() {
      Err?
    }

    function PropagateFailure<U>(): Result<U>
      requires Err?
    {
      Err(error)
    }

    function Extract(): T
      requires Ok?
    {
      value
    }
  }

  /** The error domain of every error the manager builds itself. */
  const ManagerDomain: string := "FirebaseManager"

  /** An error built by the manager: domain "FirebaseManager", code 0. */
  function Fault(message: string): Error
  {
    Error(ManagerDomain, 0, message)
  }
}

=== FILE: screens.dfy ===
/**
 The two list screens of ContentView.swift that talk to the manager: the
 exercise library (`ExerciseLibraryView.loadExercises`) and the workout log
 (`WorkoutsView.loadWorkouts`, `saveWorkout`, `deleteWorkout`). Each screen's
 state is its `@State` fields; each action is a synchronous start plus the
 transition its completion handler makes.
 */
module Screens {
  import opened Results
  import opened Domain
  import opened Documents
  import opened Store
  import opened WorkoutList
  import FirebaseManager

  // ------------------------------------------------------ exercise library

  datatype LibraryState = LibraryState(exercises: seq<Exercise>, isLoading: bool, errorMessage: Option<string>)

  /**
   `loadExercises`' synchronous start, as run on appearing, by "Try Again"
   and by pull-to-refresh: the request starts and the old error clears.
   */
  function BeginLoadLibrary(s: LibraryState): (t: LibraryState)
    ensures t.isLoading && t.errorMessage.None? && t.exercises == s.exercises
  {
    s.(isLoading := true, errorMessage := None)
  }

  /** `onAppear`: a library that already has exercises is not reloaded. */
  function AppearLibrary(s: LibraryState): (t: LibraryState)
    ensures s.exercises != [] ==> t == s
    ensures s.exercises == [] ==> t.isLoading && t.errorMessage.None? && t.exercises == []
  {
    if s.exercises == [] then BeginLoadLibrary(s) else s
  }

  /** The screen after `fetchExercises` completes, and the exercises it then saves back to the store. */
  datatype LibraryLoad = LibraryLoad(state: LibraryState, seed: seq<Exercise>)

  /**
   `loadExercises`' completion: a non-empty remote library is shown; an empty
   one is replaced by the built-in samples, which are also written back; a
   failure keeps the samples in the list and sets the error, and the error
   view hides the list until the next load.
   */
  function ExercisesLoaded(s: LibraryState, r: Result<seq<Exercise>>, samples: seq<Exercise>): (o: LibraryLoad)
    ensures !o.state.isLoading
    ensures r.Ok? && r.value != [] ==> o.state.exercises == r.value && o.seed == [] && o.state.errorMessage == s.errorMessage
    ensures r.Ok? && r.value == [] ==> o.state.exercises == samples && o.seed == samples && o.state.errorMessage == s.errorMessage
    ensures r.Err? ==> o.state.exercises == samples && o.seed == [] && o.state.errorMessage == Some(r.error.description)
  {
    match r
    case Ok(fetched) =>
      if fetched != [] then LibraryLoad(s.(isLoading := false, exercises := fetched), [])
      else LibraryLoad(s.(isLoading := false, exercises := samples), samples)
    case Err(e) => LibraryLoad(s.(isLoading := false, exercises := samples, errorMessage := Some(e.description)), [])
  }

  /** Whatever the store answers, the library shows at least one exercise once loading ends. */
  lemma LibraryNeverEmpty(s: LibraryState, r: Result<seq<Exercise>>, ids: SampleIds)
    ensures |ExercisesLoaded(s, r, SampleExercises(ids)).state.exercises| > 0
  {
  }

  /** No two of `xs` share an id. */
  predicate DistinctIds(xs: seq<Exercise>) {
    forall i, j :: 0 <= i < j < |xs| ==> xs[i].id != xs[j].id
  }

  /** `p` is the document path of one of `xs`. */
  predicate Seeds(xs: seq<Exercise>, p: Path) {
    exists i :: 0 <= i < |xs| && p == ExercisePath(xs[i].id)
  }

  /**
   The fire-and-forget `saveExercise` loop over the seed: each save is applied
   in turn, and its outcome (`errs[i]`) is ignored by the screen.
   */
  function SeedLibrary(b: Backend, xs: seq<Exercise>, errs: seq<Option<Error>>): (r: Backend)
    requires |errs| == |xs|
    ensures r.identities == b.identities && r.session == b.session
  {
    if xs == [] then b
    else
      var n := |xs| - 1;
      FirebaseManager.SaveExercise(SeedLibrary(b, xs[..n], errs[..n]), xs[n], errs[n]).backend
  }

  /** Seeding touches no document outside the seeded exercises' own paths. */
  lemma {:induction false} SeedLibraryFrame(b: Backend, xs: seq<Exercise>, errs: seq<Option<Error>>)
    requires |errs| == |xs|
    ensures var r := SeedLibrary(b, xs, errs);
            && (forall p :: p in b.db && !Seeds(xs, p) ==> p in r.db && r.db[p] == b.db[p])
            && (forall p :: p in r.db && !Seeds(xs, p) ==> p in b.db)
  {
    if xs != [] {
      var n := |xs| - 1;
      SeedLibraryFrame(b, xs[..n], errs[..n]);
      forall p | Seeds(xs[..n], p) ensures Seeds(xs, p) {
        var i :| 0 <= i < n && p == ExercisePath(xs[..n][i].id);
        assert xs[..n][i] == xs[i];
      }
      assert Seeds(xs, ExercisePath(xs[n].id));
    }
  }

  /** With distinct ids, every seed save that went through leaves its exercise stored, decodable, at its path. */
  lemma {:induction false} SeedLibraryStores(b: Backend, xs: seq<Exercise>, errs: seq<Option<Error>>)
    requires |errs| == |xs| && DistinctIds(xs)
    ensures var r := SeedLibrary(b, xs, errs);
            forall i :: 0 <= i < |xs| && errs[i].None? ==>
              ExercisePath(xs[i].id) in r.db && DecodeExercise(r.db[ExercisePath(xs[i].id)]) == Ok(xs[i])
  {
    if xs != [] {
      var n := |xs| - 1;
      var before := SeedLibrary(b, xs[..n], errs[..n]);
      var r := SeedLibrary(b, xs, errs);
      SeedLibraryStores(b, xs[..n], errs[..n]);
      forall i | 0 <= i < n && errs[i].None?
        ensures ExercisePath(xs[i].id) in r.db && DecodeExercise(r.db[ExercisePath(xs[i].id)]) == Ok(xs[i])
      {
        assert xs[..n][i] == xs[i] && errs[..n][i] == errs[i];
        PathsDistinct("", "", xs[i].id, xs[n].id);
      }
    }
  }

  /**
   Once every seed save has gone through, any faithful answer to the
   exercises query that decodes contains every sample exercise.
   */
  lemma {:induction false} SeededLibraryIsFetched(b: Backend, xs: seq<Exercise>, errs: seq<Option<Error>>,
                                                  docs: seq<DocSnapshot>)
    requires |errs| == |xs| && DistinctIds(xs) && forall i :: 0 <= i < |errs| ==> errs[i].None?
    requires AnswersQuery(SeedLibrary(b, xs, errs).db, ExercisesCollection, docs)
    requires FirebaseManager.FetchExercises(Delivered(docs)).Ok?
    ensures forall x :: x in xs ==> x in FirebaseManager.FetchExercises(Delivered(docs)).value
  {
    var db := SeedLibrary(b, xs, errs).db;
    SeedLibraryStores(b, xs, errs);
    var fetched := FirebaseManager.FetchExercises(Delivered(docs)).value;
    forall x | x in xs ensures x in fetched {
      var i :| 0 <= i < |xs| && xs[i] == x;
      ChildIdsMembership(db, ExercisesCollection, x.id);
      var k :| 0 <= k < |docs| && docs[k].id == x.id;
      assert docs[k].data == db[ExercisePath(x.id)];
      assert fetched[k] == x;
    }
  }

  // ----------------------------------------------------------- workout log

  datatype WorkoutsState = WorkoutsState(workouts: seq<Workout>, isLoading: bool, errorMessage: Option<string>)

  const LoadRefusal: string := "You must be logged in to view workouts"
  const SaveRefusal: string := "You must be logged in to save workouts"
  const DeleteRefusal: string := "You must be logged in to delete workouts"

  /**
   The synchronous start shared by `loadWorkouts` and `saveWorkout`: refused
   with `refusal` when no one is signed in; otherwise the request starts and
   the old error clears. The list itself is untouched either way.
   */
  function BeginRemote(s: WorkoutsState, session: Option<AuthUser>, refusal: string): (t: WorkoutsState)
    ensures t.workouts == s.workouts
    ensures session.None? ==> t.errorMessage == Some(refusal) && t.isLoading == s.isLoading
    ensures session.Some? ==> t.isLoading && t.errorMessage.None?
  {
    if session.None? then s.(errorMessage := Some(refusal))
    else s.(isLoading := true, errorMessage := None)
  }

  /** `loadWorkouts`' completion: the fetched list replaces the shown one; a failure keeps it and shows the error. */
  function WorkoutsLoaded(s: WorkoutsState, r: Result<seq<Workout>>): (t: WorkoutsState)
    ensures !t.isLoading
    ensures r.Ok? ==> t.workouts == r.value && t.errorMessage == s.errorMessage
    ensures r.Err? ==> t.workouts == s.workouts && t.errorMessage == Some(r.error.description)
  {
    match r
    case Ok(ws) => s.(isLoading := false, workouts := ws)
    case Err(e) => s.(isLoading := false, errorMessage := Some(e.description))
  }

  /** A list fetched from a faithful answer to the newest-first query is shown newest first. */
  lemma LoadedWorkoutsNewestFirst(s: WorkoutsState, db: Db, uid: string, docs: seq<DocSnapshot>)
    requires AnswersDateQuery(db, WorkoutsCollection(uid), docs)
    requires NewestFirst(s.workouts)
    ensures NewestFirst(WorkoutsLoaded(s, FirebaseManager.FetchWorkouts(Delivered(docs))).workouts)
  {
  }

  /** `saveWorkout`'s completion: on success the workout joins the list, which is re-sorted newest first. */
  function WorkoutSaved(s: WorkoutsState, w: Workout, r: Result<()>): (t: WorkoutsState)
    ensures !t.isLoading
    ensures r.Ok? ==> multiset(t.workouts) == multiset(s.workouts) + multiset{w} && NewestFirst(t.workouts)
    ensures r.Ok? ==> t.errorMessage == s.errorMessage
    ensures r.Err? ==> t.workouts == s.workouts && t.errorMessage == Some(r.error.description)
  {
    match r
    case Ok(_) => s.(isLoading := false, workouts := SortNewestFirst(s.workouts + [w]))
    case Err(e) => s.(isLoading := false, errorMessage := Some(e.description))
  }

  /** The screen after a swipe-to-delete, and the ids of the workouts it asks the store to delete. */
  datatype Deletion = Deletion(state: WorkoutsState, targets: set<Uuid>)

  /**
   `deleteWorkout(at:)`: refused when signed out; otherwise one remote delete
   per offset is sent and the rows are removed locally straight away.
   */
  function DeleteWorkouts(s: WorkoutsState, session: Option<AuthUser>, offsets: set<int>): (d: Deletion)
    requires session.Some? ==> forall i :: i in offsets ==> 0 <= i < |s.workouts|
    ensures session.None? ==> d.targets == {} && d.state.workouts == s.workouts &&
                              d.state.errorMessage == Some(DeleteRefusal)
    ensures session.Some? ==> d.state.workouts == RemoveAt(s.workouts, offsets) && d.state.errorMessage == s.errorMessage
    ensures forall id :: id in d.targets ==> exists i :: i in offsets && 0 <= i < |s.workouts| && s.workouts[i].id == id
    ensures session.Some? ==> forall i :: i in offsets ==> s.workouts[i].id in d.targets
    ensures d.state.isLoading == s.isLoading
  {
    if session.None? then Deletion(s.(errorMessage := Some(DeleteRefusal)), {})
    else
      var targets := set i | i in offsets && 0 <= i < |s.workouts| :: s.workouts[i].id;
      Deletion(s.(workouts := RemoveAt(s.workouts, offsets)), targets)
  }

  /** No two workouts in `ws` share an id. */
  predicate UniqueIds(ws: seq<Workout>) {
    forall i, j :: 0 <= i < j < |ws| ==> ws[i].id != ws[j].id
  }

  /**
   With unique ids, the local removal and the remote deletes agree: no row
   left on screen is being deleted, and every row not swiped is still shown.
   */
  lemma {:induction false} DeletionMatchesRemoval(s: WorkoutsState, user: AuthUser, offsets: set<int>)
    requires forall i :: i in offsets ==> 0 <= i < |s.workouts|
    requires UniqueIds(s.workouts)
    ensures var d := DeleteWorkouts(s, Some(user), offsets);
            && (forall w :: w in d.state.workouts ==> w.id !in d.targets)
            && (forall i :: 0 <= i < |s.workouts| && i !in offsets ==> s.workouts[i] in d.state.workouts)
            && |d.state.workouts| == |s.workouts| - |offsets|
  {
    var d := DeleteWorkouts(s, Some(user), offsets);
    var kept := Kept(|s.workouts|, offsets);
    RemoveAtRemovesExactly(s.workouts, offsets);
    assert Below(|s.workouts|, offsets) == offsets;
    forall w | w in d.state.workouts ensures w.id !in d.targets {
      var k :| 0 <= k < |d.state.workouts| && d.state.workouts[k] == w;
      var j := kept[k];
      assert w == s.workouts[j] && j !in offsets;
      forall i | i in offsets ensures s.workouts[i].id != w.id {
        assert i != j;
      }
    }
  }

  /**
   The delete completion as written: on failure it sets the error and then
   calls `loadWorkouts`, whose start clears the error it was just given.
   */
  function DeleteResolvedAsWritten(s: WorkoutsState, session: Option<AuthUser>, r: Result<()>): (t: WorkoutsState)
    ensures r.Ok? ==> t == s
    ensures r.Err? ==> t.workouts == s.workouts
    ensures r.Err? && session.Some? ==> t.isLoading && t.errorMessage.None?
    ensures r.Err? && session.None? ==> t.errorMessage == Some(LoadRefusal) && t.isLoading == s.isLoading
  {
    match r
    case Ok(_) => s
    case Err(e) => BeginRemote(s.(errorMessage := Some(e.description)), session, LoadRefusal)
  }

  /** While signed in, a failed delete leaves no error on screen. */
  lemma DeleteErrorIsLost(s: WorkoutsState, user: AuthUser, e: Error)
    ensures DeleteResolvedAsWritten(s, Some(user), Err(e)).errorMessage.None?
  {
  }

  /**
   The delete completion as intended: the failure stays in `errorMessage`
   while the reload that resynchronises the list runs, and is shown once it ends.
   */
  function DeleteResolved(s: WorkoutsState, session: Option<AuthUser>, r: Result<()>): (t: WorkoutsState)
    ensures r.Ok? ==> t == s
    ensures r.Err? ==> t.workouts == s.workouts && t.errorMessage == Some(r.error.description)
    ensures r.Err? ==> (t.isLoading <==> session.Some? || s.isLoading)
  {
    match r
    case Ok(_) => s
    case Err(e) => BeginRemote(s, session, LoadRefusal).(errorMessage := Some(e.description))
  }

  /** The intended completion keeps the delete error through a successful reload. */
  lemma DeleteErrorSurvivesReload(s: WorkoutsState, user: AuthUser, e: Error, ws: seq<Workout>)
    ensures WorkoutsLoaded(DeleteResolved(s, Some(user), Err(e)), Ok(ws)).errorMessage == Some(e.description)
  {
  }

  /** Saving, swiping away and resolving a delete all keep the shown list newest first. */
  lemma LocalEditsKeepNewestFirst(s: WorkoutsState, session: Option<AuthUser>, w: Workout, r: Result<()>,
                                  offsets: set<int>)
    requires NewestFirst(s.workouts)
    requires session.Some? ==> forall i :: i in offsets ==> 0 <= i < |s.workouts|
    ensures NewestFirst(BeginRemote(s, session, LoadRefusal).workouts) && NewestFirst(BeginRemote(s, session, SaveRefusal).workouts)
    ensures NewestFirst(WorkoutSaved(s, w, r).workouts)
    ensures NewestFirst(DeleteWorkouts(s, session, offsets).state.workouts)
    ensures NewestFirst(DeleteResolved(s, session, r).workouts)
  {
  }
}

=== FILE: store.dfy ===
/**
 The hosted services the manager talks to, as plain values: the document
 store is a map from paths to documents, the identity provider is the set of
 registered user ids plus the signed-in user. An asynchronous SDK call is
 modelled by what its completion handler receives.
 */
module Store {
  import opened Results
  import opened Domain
  import opened Documents

  /** A document path as the sequence of its collection and document ids. */
  type Path = seq<string>

  type Db = map<Path, Document>

  /** The signed-in identity (`auth.currentUser`): its uid and, if known, its email. */
  datatype AuthUser = AuthUser(uid: string, email: Option<string>)

  /** Everything the manager can observe or change on the remote side. */
  datatype Backend = Backend(db: Db, identities: set<string>, session: Option<AuthUser>)

  /**
   What an SDK completion handler receives: `(value?, error?)`. A non-nil error
   wins; a nil error with a nil value is `Empty`.
   */
  datatype Reply<+T> = Delivered(value: T) | Failed(error: Error) | Empty

  /** How a single-document read goes: answered from the store, failed, or answered with nothing. */
  datatype Link = Online | Offline(error: Error) | Silent

  /** The backend after an operation, and the result its completion handler is called with. */
  datatype Step<+T> = Step(backend: Backend, result: Result<T>)

  // ---------------------------------------------------------------- paths

  function ProfilePath(uid: string): Path {
    ["users", uid]
  }

  const ExercisesCollection: Path := ["exercises"]

  function ExercisePath(id: Uuid): Path {
    ExercisesCollection + [id]
  }

  function WorkoutsCollection(uid: string): Path {
    ["users", uid, "workouts"]
  }

  function WorkoutPath(uid: string, id: Uuid): Path {
    WorkoutsCollection(uid) + [id]
  }

  /** Storage key of a user's profile image. */
  function ProfileImageKey(uid: string): string {
    "profile_images/" + uid + ".jpg"
  }

  /** Storage key of an exercise's demonstration image. */
  function ExerciseImageKey(id: Uuid): string {
    "exercise_images/" + id + ".jpg"
  }

  /** Each path names exactly one record: distinct records never share a document. */
  lemma PathsDistinct(u: string, v: string, a: Uuid, b: Uuid)
    ensures ProfilePath(u) == ProfilePath(v) <==> u == v
    ensures ExercisePath(a) == ExercisePath(b) <==> a == b
    ensures WorkoutPath(u, a) == WorkoutPath(v, b) <==> u == v && a == b
    ensures ProfilePath(u) != ExercisePath(a) && ProfilePath(u) != WorkoutPath(v, b)
    ensures ExercisePath(a) != WorkoutPath(v, b)
  {
    if WorkoutPath(u, a) == WorkoutPath(v, b) {
      assert WorkoutPath(u, a)[1] == u && WorkoutPath(v, b)[1] == v;
      assert WorkoutPath(u, a)[3] == a && WorkoutPath(v, b)[3] == b;
    }
    if ExercisePath(a) == ExercisePath(b) {
      assert ExercisePath(a)[1] == a && ExercisePath(b)[1] == b;
    }
    assert |ProfilePath(u)| == 2 && |WorkoutPath(v, b)| == 4;
    assert ExercisePath(a)[0] == "exercises";
  }

  /** Different owners get different image keys, and the two kinds of key never collide. */
  lemma {:induction false} ImageKeysDistinct(u: string, v: string, a: Uuid, b: Uuid)
    ensures ProfileImageKey(u) == ProfileImageKey(v) ==> u == v
    ensures ExerciseImageKey(a) == ExerciseImageKey(b) ==> a == b
    ensures ProfileImageKey(u) != ExerciseImageKey(a)
  {
    var pre := "profile_images/";
    var epre := "exercise_images/";
    if ProfileImageKey(u) == ProfileImageKey(v) {
      assert |u| == |v|;
      assert u == ProfileImageKey(u)[|pre|..|pre| + |u|];
      assert v == ProfileImageKey(v)[|pre|..|pre| + |v|];
    }
    if ExerciseImageKey(a) == ExerciseImageKey(b) {
      assert a == ExerciseImageKey(a)[|epre|..|epre| + 36];
      assert b == ExerciseImageKey(b)[|epre|..|epre| + 36];
    }
    assert ProfileImageKey(u)[0] == 'p' && ExerciseImageKey(a)[0] == 'e';
  }

  // ---------------------------------------------------------------- reads

  /** `document(path).getDocument`: the snapshot is present exactly when a document is stored there. */
  function GetDocument(db: Db, path: Path, link: Link): Reply<Option<Document>> {
    match link
    case Online => Delivered(if path in db then Some(db[path]) else None)
    case Offline(e) => Failed(e)
    case Silent => Empty
  }

  /** One document of a query snapshot: its id within the collection, and its data. */
  datatype DocSnapshot = DocSnapshot(id: string, data: Document)

  /** The ids of the documents stored directly under collection `coll`. */
  function ChildIds(db: Db, coll: Path): set<string> {
    set p | p in db && |p| == |coll| + 1 && p[..|coll|] == coll :: p[|coll|]
  }

  lemma ChildIdsMembership(db: Db, coll: Path, id: string)
    ensures id in ChildIds(db, coll) <==> coll + [id] in db
  {
    var p := coll + [id];
    if p in db {
      assert p[..|coll|] == coll && p[|coll|] == id;
    }
    if id in ChildIds(db, coll) {
      var q :| q in db && |q| == |coll| + 1 && q[..|coll|] == coll && q[|coll|] == id;
      assert q == p;
    }
  }

  /** `docs` lists, once each and with their stored data, exactly the documents of `coll` whose ids are in `ids`. */
  predicate ListsExactly(db: Db, coll: Path, ids: set<string>, docs: seq<DocSnapshot>) {
    && (forall i :: 0 <= i < |docs| ==>
          docs[i].id in ids && coll + [docs[i].id] in db && db[coll + [docs[i].id]] == docs[i].data)
    && (forall i, j :: 0 <= i < j < |docs| ==> docs[i].id != docs[j].id)
    && (forall id :: id in ids ==> exists i :: 0 <= i < |docs| && docs[i].id == id)
  }

  /** A faithful answer to `collection(coll).getDocuments`, in whatever order the store chooses. */
  predicate AnswersQuery(db: Db, coll: Path, docs: seq<DocSnapshot>) {
    ListsExactly(db, coll, ChildIds(db, coll), docs)
  }

  /** The timestamp stored under "date", if there is one. */
  function DateKey(d: Document): Option<Date> {
    if "date" in d && d["date"].Timestamp? then Some(d["date"].t) else None
  }

  /** The children of `coll` that have a "date" field: an order-by query drops the others. */
  function DatedChildIds(db: Db, coll: Path): set<string> {
    set p | p in db && |p| == |coll| + 1 && p[..|coll|] == coll && "date" in db[p] :: p[|coll|]
  }

  lemma DatedChildIdsMembership(db: Db, coll: Path, id: string)
    ensures id in DatedChildIds(db, coll) <==> coll + [id] in db && "date" in db[coll + [id]]
  {
    var p := coll + [id];
    if p in db && "date" in db[p] {
      assert p[..|coll|] == coll && p[|coll|] == id;
    }
    if id in DatedChildIds(db, coll) {
      var q :| q in db && |q| == |coll| + 1 && q[..|coll|] == coll && "date" in db[q] && q[|coll|] == id;
      assert q == p;
    }
  }

  /**
   A faithful answer to `collection(coll).order(by: "date", descending: true).getDocuments`:
   the dated children, newest timestamp first.
   */
  predicate AnswersDateQuery(db: Db, coll: Path, docs: seq<DocSnapshot>) {
    && ListsExactly(db, coll, DatedChildIds(db, coll), docs)
    && forall i, j :: 0 <= i < j < |docs| && DateKey(docs[i].data).Some? && DateKey(docs[j].data).Some? ==>
         DateKey(docs[i].data).value >= DateKey(docs[j].data).value
  }
}

=== FILE: workout_list.dfy ===
/**
 The sequence operations behind the workouts screen and the workout editor
 (ContentView.swift): keeping the list newest first after an insert, removing
 the rows at a set of offsets, resizing the list of sets, and building the
 workout the editor hands back.
 */
module WorkoutList {
  import opened Results
  import opened Domain

  // ------------------------------------------------------ newest-first sort

  /** Places `w` after every workout at least as new, so the list stays newest first. */
  function Insert(w: Workout, xs: seq<Workout>): (r: seq<Workout>)
    requires NewestFirst(xs)
    ensures NewestFirst(r)
    ensures multiset(r) == multiset(xs) + multiset{w}
    ensures |r| == |xs| + 1
    ensures r != [] && (r[0] == w || (xs != [] && r[0] == xs[0]))
  {
    if xs == [] then [w]
    else if xs[0].date >= w.date then
      NewestFirstTail(xs);
      var rest := Insert(w, xs[1..]);
      assert xs == [xs[0]] + xs[1..];
      SortedCons(xs[0], rest);
      MultisetCons(xs[0], rest, xs[1..], w);
      [xs[0]] + rest
    else [w] + xs
  }

  lemma NewestFirstTail(xs: seq<Workout>)
    requires NewestFirst(xs) && xs != []
    ensures NewestFirst(xs[1..])
  {
  }

  lemma MultisetCons(x: Workout, ys: seq<Workout>, zs: seq<Workout>, w: Workout)
    requires multiset(ys) == multiset(zs) + multiset{w}
    ensures multiset([x] + ys) == multiset([x] + zs) + multiset{w}
  {
  }

  lemma SortedCons(x: Workout, ys: seq<Workout>)
    requires NewestFirst(ys) && (ys == [] || x.date >= ys[0].date)
    ensures NewestFirst([x] + ys)
  {
  }

  /** `workouts.sort { $0.date > $1.date }`: a newest-first permutation of `xs`. */
  function SortNewestFirst(xs: seq<Workout>): (r: seq<Workout>)
    ensures NewestFirst(r)
    ensures multiset(r) == multiset(xs)
  {
    if xs == [] then []
    else
      var init := xs[..|xs| - 1];
      assert xs == init + [xs[|xs| - 1]];
      Insert(xs[|xs| - 1], SortNewestFirst(init))
  }

  /** The workouts of `xs` dated `d`, in their order in `xs`. */
  function DatedOn(xs: seq<Workout>, d: Date): seq<Workout> {
    if xs == [] then [] else (if xs[0].date == d then [xs[0]] else []) + DatedOn(xs[1..], d)
  }

  lemma {:induction false} DatedOnAppend(a: seq<Workout>, b: seq<Workout>, d: Date)
    ensures DatedOn(a + b, d) == DatedOn(a, d) + DatedOn(b, d)
  {
    if a != [] {
      assert (a + b)[1..] == a[1..] + b;
      DatedOnAppend(a[1..], b, d);
    } else {
      assert a + b == b;
    }
  }

  /** A newest-first list whose head is older than `d` holds nothing dated `d`. */
  lemma {:induction false} DatedOnOlder(xs: seq<Workout>, d: Date)
    requires NewestFirst(xs) && xs != [] && xs[0].date < d
    ensures DatedOn(xs, d) == []
  {
    if |xs| > 1 {
      assert xs[1..][0].date <= xs[0].date;
      DatedOnOlder(xs[1..], d);
    }
  }

  lemma DatedOnCons(x: Workout, ys: seq<Workout>, d: Date)
    ensures DatedOn([x] + ys, d) == (if x.date == d then [x] else []) + DatedOn(ys, d)
  {
    assert ([x] + ys)[1..] == ys;
  }

  /** Putting the same workout in front of two lists keeps the relation between their dated parts. */
  lemma DatedOnConsKeeps(x: Workout, ys: seq<Workout>, zs: seq<Workout>, extra: seq<Workout>, d: Date)
    requires DatedOn(ys, d) == DatedOn(zs, d) + extra
    ensures DatedOn([x] + ys, d) == DatedOn([x] + zs, d) + extra
  {
    DatedOnCons(x, ys, d);
    DatedOnCons(x, zs, d);
  }

  /** `Insert` places `w` after every workout of its own date. */
  lemma {:induction false} InsertIsStable(w: Workout, xs: seq<Workout>, d: Date)
    requires NewestFirst(xs)
    ensures DatedOn(Insert(w, xs), d) == DatedOn(xs, d) + (if w.date == d then [w] else [])
  {
    if xs == [] {
      DatedOnCons(w, [], d);
    } else if xs[0].date >= w.date {
      NewestFirstTail(xs);
      InsertIsStable(w, xs[1..], d);
      var ins := Insert(w, xs[1..]);
      assert Insert(w, xs) == [xs[0]] + ins;
      assert xs == [xs[0]] + xs[1..];
      DatedOnConsKeeps(xs[0], ins, xs[1..], if w.date == d then [w] else [], d);
    } else {
      DatedOnCons(w, xs, d);
      if w.date == d {
        DatedOnOlder(xs, d);
      }
    }
  }

  /**
   `sort(by:)` is stable: the workouts sharing a date come out in the order
   they went in.
   */
  lemma {:induction false} SortIsStable(xs: seq<Workout>, d: Date)
    ensures DatedOn(SortNewestFirst(xs), d) == DatedOn(xs, d)
  {
    if xs != [] {
      var init := xs[..|xs| - 1];
      var last := xs[|xs| - 1];
      assert xs == init + [last];
      SortIsStable(init, d);
      InsertIsStable(last, SortNewestFirst(init), d);
      DatedOnAppend(init, [last], d);
    }
  }

  // ------------------------------------------------------- remove offsets

  /** The indices below `n` that are not in `offsets`, in increasing order. */
  function Kept(n: nat, offsets: set<int>): (r: seq<nat>)
    ensures forall k :: 0 <= k < |r| ==> r[k] < n && r[k] !in offsets
    ensures forall k, l :: 0 <= k < l < |r| ==> r[k] < r[l]
    ensures forall i :: 0 <= i < n && i !in offsets ==> i in r
  {
    if n == 0 then []
    else Kept(n - 1, offsets) + (if n - 1 in offsets then [] else [n - 1])
  }

  /**
   `remove(atOffsets:)`: drops the entries at the given offsets and keeps the
   others in their original relative order.
   */
  function RemoveAt<T>(xs: seq<T>, offsets: set<int>): (r: seq<T>)
    ensures |r| == |Kept(|xs|, offsets)|
    ensures forall k :: 0 <= k < |r| ==> r[k] == xs[Kept(|xs|, offsets)[k]]
  {
    if xs == [] then []
    else
      var last := |xs| - 1;
      var init := xs[..last];
      RemoveAt(init, offsets) + (if last in offsets then [] else [xs[last]])
  }

  /** Removing rows from a newest-first list leaves it newest first. */
  lemma RemoveAtKeepsOrder(xs: seq<Workout>, offsets: set<int>)
    requires NewestFirst(xs)
    ensures NewestFirst(RemoveAt(xs, offsets))
  {
  }

  /** The offsets that name a row of a list of length `n`. */
  function Below(n: nat, offsets: set<int>): set<int> {
    set i | i in offsets && 0 <= i < n
  }

  /** Every row not at one of the offsets survives; the list shrinks by the number of offsets in range. */
  lemma {:induction false} RemoveAtRemovesExactly<T>(xs: seq<T>, offsets: set<int>)
    ensures |RemoveAt(xs, offsets)| == |xs| - |Below(|xs|, offsets)|
    ensures forall i :: 0 <= i < |xs| && i !in offsets ==> xs[i] in RemoveAt(xs, offsets)
  {
    KeptCount(|xs|, offsets);
    var kept := Kept(|xs|, offsets);
    forall i | 0 <= i < |xs| && i !in offsets ensures xs[i] in RemoveAt(xs, offsets) {
      var k :| 0 <= k < |kept| && kept[k] == i;
      assert RemoveAt(xs, offsets)[k] == xs[i];
    }
  }

  lemma {:induction false} KeptCount(n: nat, offsets: set<int>)
    ensures |Kept(n, offsets)| == n - |Below(n, offsets)|
  {
    if n == 0 {
      assert Below(0, offsets) == {};
    } else {
      KeptCount(n - 1, offsets);
      if n - 1 in offsets {
        assert Below(n, offsets) == Below(n - 1, offsets) + {n - 1};
        assert n - 1 !in Below(n - 1, offsets);
        assert |Below(n, offsets)| == |Below(n - 1, offsets)| + 1;
      } else {
        assert Below(n, offsets) == Below(n - 1, offsets);
      }
    }
  }

  // ------------------------------------------------------------ set editor

  /**
   `SetConfigurationView.updateSets`: grows the list with blank sets (one
   fresh id each) or truncates it, keeping the sets that were already there.
   */
  method UpdateSets(sets: seq<ExerciseSet>, numberOfSets: nat, freshIds: seq<Uuid>) returns (r: seq<ExerciseSet>)
    requires |freshIds| >= numberOfSets - |sets|
    ensures |r| == numberOfSets
    ensures forall i :: 0 <= i < |r| && i < |sets| ==> r[i] == sets[i]
    ensures forall i :: |sets| <= i < |r| ==> r[i] == BlankSet(freshIds[i - |sets|]) && IsBlank(r[i])
  {
    r := sets;
    if |sets| < numberOfSets {
      var k := |sets|;
      while k < numberOfSets
        invariant |sets| <= k <= numberOfSets
        invariant |r| == k
        invariant r[..|sets|] == sets
        invariant forall i :: |sets| <= i < k ==> r[i] == BlankSet(freshIds[i - |sets|])
      {
        r := r + [BlankSet(freshIds[k - |sets|])];
        k := k + 1;
      }
    } else if |sets| > numberOfSets {
      r := sets[..numberOfSets];
    }
  }

  // --------------------------------------------------------- workout editor

  /** `text.isEmpty ? nil : text`, used for every notes field the editors produce. */
  function NotesOrNil(text: string): (r: Option<string>)
    ensures r.None? <==> text == ""
    ensures r.Some? ==> r.value == text
  {
    if text == "" then None else Some(text)
  }

  /**
   `CreateWorkoutView.saveWorkout`: the workout built from the form, with the
   duration converted from minutes to seconds.
   */
  function NewWorkout(id: Uuid, name: string, date: Date, minutes: real,
                      exercises: seq<WorkoutExercise>, notes: string, kind: WorkoutType): (w: Workout)
    ensures w.duration == minutes * 60.0
    ensures 5.0 <= minutes <= 180.0 ==> 300.0 <= w.duration <= 10800.0
    ensures w.notes.None? <==> notes == ""
    ensures notes != "" ==> w.notes == Some(notes)
    ensures w.id == id && w.name == name && w.date == date && w.exercises == exercises && w.workoutType == kind
  {
    Workout(id, name, date, minutes * 60.0, exercises, NotesOrNil(notes), kind)
  }
}
